=== FILE: README.md ===
# Order-placed pipeline of northwind-micro, in Dafny

The OrderService accepts an order over HTTP. It saves the order to its own
database, then publishes an `OrderPlaced` event to an Azure Service Bus
queue. The InventoryService receives that event one message at a time. For
every line it deducts the ordered quantity from the product's stock,
clamped at zero. It completes the message only after its database save
returns. It abandons the message on any failure inside the handler's
`try`, so the broker redelivers it, and it dead-letters a body that cannot
be deserialized.

This project models that pipeline:

- **`Primitives`**: C#'s `int`, including the unchecked subtraction the
  deduction uses, nullable references as `Option`, and `decimal` as an
  opaque literal.
- **`Iso8601` and `Json`**: the parts of `System.Text.Json` the two
  message classes rely on:
  - property names matched exactly or ignoring case;
  - properties missing from the body keep their initializers;
  - a repeated property is read every time, and the last one wins;
  - each property type accepts its own JSON shapes;
  - `DateTime` is written in ISO 8601 form.
- **`OrderMessages` and `InventoryMessages`**: the two independent copies
  of the event class, the serializer on the producer side, and the
  case-insensitive deserializer on the consumer side.
- **`WireCompat`**: the two copies agree. What the publisher writes reads
  back, on the consumer side, as the same message. This also holds for any
  other letter case of the member names, camelCase included.
- **`Inventory`**: the stock table and the clamped deduction, line by line.
- **`OrderPlacedConsumer`**: `HandleMessageAsync`, with store failures as
  an explicit fault parameter. It also models the processor that handles
  deliveries strictly one after another (`MaxConcurrentCalls = 1`).
- **`ServiceBus`**: envelopes, verdicts, and the queue-name default. Each
  service reads the queue name from its own configuration.
- **`Orders`**: the `Order` entity with its defaults, and the orders table
  with its identity column.
- **`OrderEventPublisher`**: the sender and `PublishOrderPlacedAsync`. A
  counter stands in for `Guid.NewGuid()`.
- **`OrdersController`**: `CreateOrder`. It validates the request, saves,
  and publishes after the save. The clock (`DateTime.UtcNow`) and the
  store's and broker's failures are parameters.
- **`Pipeline`**: the end-to-end statement. An order answered `Created`
  puts one envelope on the queue. The consumer, handling that envelope with
  no store failure, completes it and deducts exactly the requested lines.

Message bodies are abstracted one level above bytes. A body is either a
well-formed JSON document tree or `NotJson`.

`JsonSerializer.Serialize` with default options writes the members as
declared, in PascalCase (`OrderId`, `Items`, …). The consumer matches names
ignoring case, so camelCase names (`orderId`, `items`, …) are read like the
declared ones: see `WireCompat.SerializeRoundTrip` and
`WireCompat.CamelCaseAccepted`.

The consumer records a `Save` call even when no line changed the stock.
That happens when a line names a product the store lacks. The call writes
nothing then, and the stock the model returns is unchanged.

## Model

| member | source | states |
|---|---|---|
| `Primitives.Sub32` | InventoryService/Messaging/OrderPlacedConsumer.cs:100 | `UnitsInStock - Quantity` on two `int`s outside a checked context: the exact difference when it fits, otherwise the difference wrapped once by 2^32 in the direction of the overflow |
| `Iso8601.Parse` | InventoryService/Messaging/OrderPlacedMessage.cs:10 | a `PlacedAt` text is accepted only in the `yyyy-MM-ddTHH:mm:ss[.fffffff]Z` shape: twenty characters with no fraction, or a point followed by one to seven digits before the `Z`; never as an invalid calendar instant |
| `Iso8601.ParseFormat` | OrderService/Messaging/OrderPlacedMessage.cs:9 | every instant a `DateTime` can hold is read back unchanged from the text the serializer writes for it |
| `Iso8601.FormatInjective` | OrderService/Messaging/OrderPlacedMessage.cs:9 | two different instants are never written as the same text |
| `Json.ReadProperty` | InventoryService/Messaging/OrderPlacedConsumer.cs:68-69 | a property that no member of the object binds to keeps its default value |
| `Json.ReadPropertyIgnoresCase` | InventoryService/Messaging/OrderPlacedConsumer.cs:69 | with `PropertyNameCaseInsensitive`, respelling member names in another letter case reads the same value |
| `Json.ReadOnlyAt` | InventoryService/Messaging/OrderPlacedConsumer.cs:68-69 | when exactly one member binds to a property, the property reads as that member's value |
| `Json.ReadInt32` | InventoryService/Messaging/OrderPlacedMessage.cs:8 | an `int` property accepts exactly the integral JSON numbers inside the 32-bit range, and throws on anything else, null included |
| `Json.ReadString` | InventoryService/Messaging/OrderPlacedMessage.cs:9 | a `string` property accepts exactly a JSON string or null, and null reads as a null reference |
| `Json.ReadDecimal` | InventoryService/Messaging/OrderPlacedMessage.cs:18 | a `decimal` property accepts exactly the JSON numbers |
| `Json.ReadDateTime` | InventoryService/Messaging/OrderPlacedMessage.cs:10 | a `DateTime` property throws on null, and what it accepts is a string whose text parses to the value read |
| `Json.Int32RoundTrip` | OrderService/Messaging/OrderPlacedMessage.cs:7 | every `int` the producer writes reads back as the same `int` |
| `Json.DateTimeRoundTrip` | OrderService/Messaging/OrderPlacedMessage.cs:9 | every `DateTime` the producer writes reads back as the same instant |
| `InventoryMessages.ReadItem` | InventoryService/Messaging/OrderPlacedMessage.cs:14-19 | a null element of `Items` reads as a null item, and an element that is neither an object nor null throws |
| `InventoryMessages.ReadItemList` | InventoryService/Messaging/OrderPlacedMessage.cs:11 | the list reads if and only if every element reads, and then holds each element's value in array order |
| `InventoryMessages.ReadItems` | InventoryService/Messaging/OrderPlacedMessage.cs:11 | an explicit null `Items` reads as a null list, and a list read from an array has one entry per element |
| `InventoryMessages.Deserialize` | InventoryService/Messaging/OrderPlacedConsumer.cs:68-69 | the document `null` is exactly the one that yields a null message; a document that is neither null nor an object throws; `{}` yields the message with every initializer and default |
| `InventoryMessages.DeserializeObject` | InventoryService/Messaging/OrderPlacedMessage.cs:6-12 | an object whose four properties each read successfully deserializes to the message holding those four values |
| `InventoryMessages.AbsentPropertiesDefault` | InventoryService/Messaging/OrderPlacedMessage.cs:9-11 | a body naming only the order id keeps `CustomerId` empty, `PlacedAt` at `DateTime.MinValue` and `Items` an empty list |
| `InventoryMessages.DeserializeIgnoresCase` | InventoryService/Messaging/OrderPlacedConsumer.cs:69 | two bodies that differ only in the letter case of member names deserialize alike |
| `InventoryMessages.NullItemsReadAsNull` | InventoryService/Messaging/OrderPlacedMessage.cs:11 | an explicit `"Items": null` overrides the list initializer and leaves `Items` null |
| `InventoryMessages.WrongTypeFails` | InventoryService/Messaging/OrderPlacedConsumer.cs:68-71 | a string or a fractional number where `OrderId` should be an integer makes deserialization throw |
| `WireCompat.ToConsumer` | InventoryService/Messaging/OrderPlacedMessage.cs:6-19 | the consumer copy of a producer message holds the same id, customer, placement time and lines, with no null part |
| `WireCompat.SchemasCorrespond` | InventoryService/Messaging/OrderPlacedMessage.cs:3-5 | the two copies of the class correspond property for property: going to the consumer copy and back loses nothing |
| `WireCompat.ToConsumerInjective` | OrderService/Messaging/OrderPlacedMessage.cs:3-4 | two different producer messages never look alike to the consumer |
| `OrderMessages.SerializeReadsBack` | OrderService/Messaging/OrderEventPublisher.cs:27 | the serialized event is an object of the four properties under their declared names, in declaration order, whose `OrderId`, `CustomerId` and `PlacedAt` values read back as the message's, and whose `Items` array has one element per line |
| `WireCompat.SerializeSpellsDeclared` | OrderService/Messaging/OrderEventPublisher.cs:27 | the producer writes the members under their declared PascalCase names, in declaration order |
| `WireCompat.RoundTrip` | InventoryService/Messaging/OrderPlacedConsumer.cs:68-69 | a body spelling the members in any letter case reads back as the consumer copy of the message it encodes |
| `WireCompat.SerializeRoundTrip` | OrderService/Messaging/OrderEventPublisher.cs:27 | the body the publisher writes deserializes on the consumer side to the consumer copy of the published message |
| `WireCompat.CamelCaseAccepted` | InventoryService/Messaging/OrderPlacedConsumer.cs:69 | the camelCase member names are read like the declared ones |
| `Inventory.Deduct` | InventoryService/Messaging/OrderPlacedConsumer.cs:99-100 | the new stock is never negative; with a non-negative stock and quantity it is the difference clamped at zero, the difference when the quantity fits, and zero otherwise |
| `Inventory.NegativeQuantityRaisesStock` | InventoryService/Messaging/OrderPlacedConsumer.cs:100 | nothing rejects a negative quantity: it raises the stock by its magnitude when the sum fits in `int` |
| `Inventory.NegativeQuantityOverflowEmpties` | InventoryService/Messaging/OrderPlacedConsumer.cs:100 | a negative quantity that overflows `int` wraps negative and is clamped to zero, so stock `int.MaxValue` minus `-1` leaves zero |
| `Inventory.ApplyItem` | InventoryService/Messaging/OrderPlacedConsumer.cs:92-100 | a line for a product the store lacks changes nothing; otherwise only that product's stock changes, to the clamped deduction; the set of products and non-negativity are kept |
| `Inventory.ApplyItems` | InventoryService/Messaging/OrderPlacedConsumer.cs:90-104 | applying the lines in order keeps the set of products and keeps every stock non-negative |
| `Inventory.ApplyItemsPerProduct` | InventoryService/Messaging/OrderPlacedConsumer.cs:90-104 | each product ends at its starting stock with its own lines' quantities deducted in turn, whatever the other lines say |
| `Inventory.UnmentionedUnchanged` | InventoryService/Messaging/OrderPlacedConsumer.cs:90-97 | a product no line names keeps its stock |
| `Inventory.MentionedNonNegative` | InventoryService/Messaging/OrderPlacedConsumer.cs:100 | a product a line names ends with a non-negative stock, even if it started negative |
| `Inventory.QuantitiesMentioned` | InventoryService/Messaging/OrderPlacedConsumer.cs:90-92 | a product that some line names has at least one quantity to deduct |
| `Inventory.DeductAllIsClampedTotal` | InventoryService/Messaging/OrderPlacedConsumer.cs:99-100 | with non-negative stock and quantities, deducting the quantities one by one equals deducting their total once and clamping at zero |
| `Inventory.StockAfterOrder` | InventoryService/Messaging/OrderPlacedConsumer.cs:90-104 | with non-negative quantities, a stocked product ends at its stock minus the total ordered for it, clamped at zero |
| `Inventory.QuantitiesNonNegative` | InventoryService/Messaging/OrderPlacedConsumer.cs:90-92 | when no line carries a negative quantity, no product has a negative quantity to deduct |
| `Inventory.LinesApplyInOrder` | InventoryService/Messaging/OrderPlacedConsumer.cs:90-104 | the order of lines matters: on stock 5 of product 1, a line taking 10 then one returning 5 ends at 5, and the reverse order ends at 0 |
| `Inventory.SkipMissingProduct` | InventoryService/Messaging/OrderPlacedConsumer.cs:93-97 | a line for a product the store lacks is skipped: the other lines, in their order, leave the same stock with or without it |
| `OrderPlacedConsumer.Parse` | InventoryService/Messaging/OrderPlacedConsumer.cs:62-76 | a body that is not JSON throws, and a JSON body is read as the deserializer reads its document |
| `OrderPlacedConsumer.Deduction` | InventoryService/Messaging/OrderPlacedConsumer.cs:90-104 | the loop gets through if and only if every line is present and no lookup throws; it then holds the lines applied in order, after one lookup per line |
| `OrderPlacedConsumer.Process` | InventoryService/Messaging/OrderPlacedConsumer.cs:84-117 | `Complete` if and only if the loop, the save and `CompleteMessageAsync` all succeed, with the lines committed and the save as the last store call; the save is issued if and only if the loop gets through; an abandoned message keeps the stock unchanged unless `CompleteMessageAsync` threw after the save was issued; in that case the lines are deducted |
| `OrderPlacedConsumer.Handle` | InventoryService/Messaging/OrderPlacedConsumer.cs:60-118 | the corrected handler (see Findings): dead-letters with reason "DeserializationFailed" exactly the bodies that fail to deserialize; completes a null or line-less message without a store call; no verdict but `Complete` changes stock unless `CompleteMessageAsync` throws after the save was issued; products and non-negativity are kept |
| `OrderPlacedConsumer.UncommittedKeepsStock` | InventoryService/Messaging/OrderPlacedConsumer.cs:71-117 | a message not completed keeps the stock unchanged whenever the failure is not a `CompleteMessageAsync` throw after every line was present: a dead-letter, a null line, a failing lookup or save, or a completion failure on a message the loop never got through |
| `OrderPlacedConsumer.CompleteOnlyAfterSave` | InventoryService/Messaging/OrderPlacedConsumer.cs:106-109 | a `Complete` after store work is preceded by a save that succeeded, and leaves the lines applied in order |
| `OrderPlacedConsumer.FaultAbandons` | InventoryService/Messaging/OrderPlacedConsumer.cs:112-117 | a failing lookup or save, or a null line, abandons the message with nothing committed |
| `OrderPlacedConsumer.UntouchedProductsKeepStock` | InventoryService/Messaging/OrderPlacedConsumer.cs:90-117 | a product no line names keeps its stock whatever the verdict |
| `OrderPlacedConsumer.HandleAsWritten` | InventoryService/Messaging/OrderPlacedConsumer.cs:78-82 | the handler as written settles no verdict exactly for the messages that deserialize with a null `Items` |
| `OrderPlacedConsumer.AsWrittenLeavesNullItemsUnsettled` | InventoryService/Messaging/OrderPlacedConsumer.cs:78 | the body `{"OrderId": 7, "Items": null}` deserializes, yet the handler as written gives it no verdict |
| `OrderPlacedConsumer.AsWrittenAgreesOtherwise` | InventoryService/Messaging/OrderPlacedConsumer.cs:60-118 | on every other input the handler as written and the corrected handler give the same outcome |
| `OrderPlacedConsumer.NullItemsCompleted` | InventoryService/Messaging/OrderPlacedConsumer.cs:78-82 | the corrected handler completes the null-`Items` message without a store call |
| `OrderPlacedConsumer.ScenarioDeductsQuantity` | InventoryService/Messaging/OrderPlacedConsumer.cs:99-109 | ten in stock with a line for five leaves five, and the message completes |
| `OrderPlacedConsumer.ScenarioClampsAtZero` | InventoryService/Messaging/OrderPlacedConsumer.cs:100 | five in stock with a line for fifty leaves zero, and the message completes |
| `OrderPlacedConsumer.ScenarioMalformedBody` | InventoryService/Messaging/OrderPlacedConsumer.cs:71-75 | a body that is not JSON is dead-lettered with reason "DeserializationFailed" and no store call |
| `OrderPlacedConsumer.ScenarioEmptyItems` | InventoryService/Messaging/OrderPlacedConsumer.cs:78-82 | an empty item list completes with no store call |
| `OrderPlacedConsumer.ScenarioMissingProduct` | InventoryService/Messaging/OrderPlacedConsumer.cs:92-97 | a line for a product the store lacks is looked up and skipped, nothing changes, and the message completes |
| `OrderPlacedConsumer.RunKeeps` | InventoryService/Messaging/OrderPlacedConsumer.cs:37-41 | a handler that keeps the set of products and non-negative stock keeps both over any number of deliveries handled one after another |
| `OrderPlacedConsumer.RunInOrder` | InventoryService/Messaging/OrderPlacedConsumer.cs:37-41 | with one concurrent call, each delivery's verdict is the one the handler gives it against the stock the earlier deliveries left, and the final stock is the fold of the handler over the deliveries |
| `OrderPlacedConsumer.StockAfter` | InventoryService/Messaging/OrderPlacedConsumer.cs:37-41 | handling deliveries one after another with the corrected handler (see Findings) keeps the set of products and keeps every stock non-negative |
| `OrderPlacedConsumer.ProcessSequentially` | InventoryService/Messaging/OrderPlacedConsumer.cs:37-41 | with one concurrent call and the corrected handler (see Findings), each delivery's verdict is the one it gets against the stock the earlier deliveries left, and the final stock keeps the products and stays non-negative |
| `OrderPlacedConsumer.RedeliveryDeductsTwice` | InventoryService/Messaging/OrderPlacedConsumer.cs:106-116 | no idempotency key is checked, so a message delivered twice has its lines deducted twice |
| `OrderPlacedConsumer.RedeliveryExample` | InventoryService/Messaging/OrderPlacedConsumer.cs:99-100 | ten in stock and a line for three, delivered twice, leaves four |
| `OrderPlacedConsumer.AbandonedAttemptLeavesNoTrace` | InventoryService/Messaging/OrderPlacedConsumer.cs:112-117 | an attempt abandoned before anything committed (everything except a `CompleteMessageAsync` throw after the save), followed by the redelivery, ends where handling the redelivery alone would |
| `OrderPlacedConsumer.CommittedThenAbandonedDeductsTwice` | InventoryService/Messaging/OrderPlacedConsumer.cs:106-116 | when `CompleteMessageAsync` throws after the save committed, the message is abandoned with its lines deducted, and the redelivery deducts them a second time |
| `ServiceBus.QueueName` | InventoryService/Messaging/OrderPlacedConsumer.cs:34 | the configured queue name is used when present, and "order-placed" otherwise |
| `ServiceBus.BoundQueue` | InventoryService/Messaging/OrderPlacedConsumer.cs:32-37 | a client binds to the configured queue name, or to "order-placed"; the constructor throws exactly when no connection string is configured or the client library rejects its arguments |
| `Orders.NewOrder` | OrderService/Models/Order.cs:5-10 | a new order has no id, an empty customer, the clock's time as its date, status "Placed" and no lines |
| `Orders.InsertOrder` | OrderService/Controllers/OrdersController.cs:96-97 | the save fails exactly when the store fails or the identity column has run past `int`; otherwise the order is committed unchanged under a fresh id, the rows already there stay as they were, and the table stays consistent |
| `OrderEventPublisher.Connect` | OrderService/Messaging/OrderEventPublisher.cs:13-23 | the sender starts with nothing sent, bound to the configured queue name or to "order-placed"; the constructor throws exactly when no connection string is configured or the client library rejects its arguments |
| `OrderEventPublisher.PublishOrderPlaced` | OrderService/Messaging/OrderEventPublisher.cs:25-37 | the envelope holds the serialized message, content type "application/json", subject "OrderPlaced" and an id not drawn before; one send appends it to the queue, or fails and leaves the queue as it was, with no retry |
| `OrderEventPublisher.PublishKeepsIdsDistinct` | OrderService/Messaging/OrderEventPublisher.cs:32 | a publish keeps every id on the queue issued and pairwise different |
| `OrderEventPublisher.PublishAllDistinct` | OrderService/Messaging/OrderEventPublisher.cs:32 | any number of publishes leave one envelope per message on the queue, no two with the same id |
| `OrdersController.BuildOrder` | OrderService/Controllers/OrdersController.cs:83-94 | the new order has the requested customer, the clock's time, status "Placed" and the requested lines in order, and no id yet |
| `OrdersController.ToMessage` | OrderService/Controllers/OrdersController.cs:101-112 | the event carries the saved order's id and customer, its date as the placement time, and its lines in order |
| `OrdersController.CreateOrder` | OrderService/Controllers/OrdersController.cs:78-123 | refuses with "Order must contain at least one item." exactly the requests with a null or empty `Items`, touching nothing. Otherwise it saves first, calls the broker at most once and only after a successful save, and a failed save changes nothing. The queue gains exactly what was delivered. `Created` is answered exactly when both calls returned, and names a new row, the requested customer and status "Placed" |
| `OrdersController.EventDescribesSavedOrder` | OrderService/Controllers/OrdersController.cs:96-114 | once the save returns, the table has exactly one new row, holding the requested order, and the rows already there are unchanged; the one message sent is the event for that row |
| `OrdersController.EventHasLines` | OrderService/Controllers/OrdersController.cs:101-112 | the event for an order with lines has lines, and carries the order's id and date |
| `OrdersController.PublishFailureKeepsOrder` | OrderService/Controllers/OrdersController.cs:97-114 | a failed publish comes after the commit: the answer is an error, the order stays saved, and the queue is unchanged |
| `OrdersController.EmptyRequestRefused` | OrderService/Controllers/OrdersController.cs:127-131 | a request body that sets nothing, or sets `Items` to null, is refused and changes nothing |
| `Pipeline.EventReadsAsOrderLines` | InventoryService/Messaging/OrderPlacedConsumer.cs:78-90 | the consumer reads the event for a saved order as a non-empty list of present lines, equal to the requested lines |
| `Pipeline.PlacedOrderDeductsStock` | OrderService/Controllers/OrdersController.cs:74-76 | an order answered `Created` puts one envelope on the queue; with no store failure the consumer completes it, after one lookup per requested line and one save, leaving the requested lines deducted in order |
| `Pipeline.SameQueue` | OrderService/Messaging/OrderEventPublisher.cs:18 | a consistency note across the two services, which read their configurations separately: when both constructors succeed, the publisher's queue is the consumer's queue exactly when the names the two configurations resolve to agree, and both use "order-placed" when neither sets the key |

## Left out

- The broker's own behaviour is not modelled: message locks, the per-message
  delivery counter, and the automatic dead-lettering after
  `MaxDeliveryCount` deliveries. A redelivery is simply another
  `Delivery` of the same envelope.
- The host lifecycle is left out: `ExecuteAsync`, `StartProcessingAsync`,
  `StopProcessingAsync`, `HandleErrorAsync` and `Dispose`. They only start,
  stop and log.
- Logging is left out, and so is the dead-letter description (`ex.Message`).
  Only the dead-letter reason is modelled.
- JSON text syntax is left out. A body is a document tree or `NotJson`.
  Number forms beyond an integer mantissa with a decimal scale are not
  modelled: exponents, `decimal` range and rounding. An `int` accepts an
  exact integer literal only.
- Name matching ignoring case folds ASCII letters only. Unicode case folding
  is not modelled.
- `DateTime` text is limited to the `yyyy-MM-ddTHH:mm:ss[.fffffff]Z` form
  the producer writes for UTC times. Other ISO 8601 forms that the reader
  accepts are not modelled: offsets, no zone, fewer fields. `DateTime.Kind`
  is not modelled either.
- `Guid.NewGuid()` is modelled as a counter, so its ids are unique by
  construction. The string form of a GUID is not modelled.
- Request model binding is left out: the request body is already a
  `CreateOrderRequest` value. A null `CustomerId` and null elements inside
  `Items` are not modelled.
- The read-only endpoints `GetOrders` and `GetOrder` are left out. They do
  not take part in the pipeline.
- The `Program.cs` files, the API gateway, `InventoryController` and the
  two `DbContext` classes are left out. `OrderItem.cs` is not part of this
  model: the order line carries exactly the three properties the
  controller copies.
- A send that fails is modelled as never reaching the queue. A send that
  throws after the broker accepted the message is not modelled.
- OrderPlacedConsumer.Fault: `SaveFails` stands for a `SaveChangesAsync`
  (`OrderPlacedConsumer.cs:106`) that throws having committed nothing. A
  save that commits and then throws (the connection dropping before the
  acknowledgement; no retry policy is configured) is not modelled. The
  handler would abandon with the lines deducted, as under `CompleteFails`,
  and the redelivery would deduct them again. `FaultAbandons`,
  `UncommittedKeepsStock` and `AbandonedAttemptLeavesNoTrace` hold only for
  a save that commits nothing.
- Orders.InsertOrder: `fails` stands for a `SaveChangesAsync`
  (`OrdersController.cs:97`) that throws having committed nothing. A save
  that commits and then throws is not modelled: `CreateOrder` would answer
  500 for an order that is saved and for which no event is sent.
- Each store lookup finds the product as earlier lines of the same
  message left it. This models Entity Framework returning the tracked
  entity, and is how several lines for one product accumulate.
- Only the single consumer instance the configuration sets up is modelled.
  Competing consumers on the same queue are not.
- Creating the per-message scope and resolving the database context
  (`OrderPlacedConsumer.cs:85-86`) are modelled as returning. They sit
  before the `try` at line 88, so a throw from either would leave the
  message unsettled until the processor's error handler runs; this is not
  modelled.
- The settle calls outside the handler's `try` are modelled as returning:
  the dead-letter call (`OrderPlacedConsumer.cs:74`), the completion of a
  message without lines (line 80) and the abandon in the `catch` (line
  116). If one of them throws, the processor's error handler runs and the
  broker redelivers after the lock expires; this is not modelled.
- ServiceBus.BoundQueue: the client library's own argument checks (an
  empty or malformed connection string, a blank queue name) are not part
  of this model; a parameter says whether they throw.
- OrderEventPublisher.Connect: the same parameter stands for the client
  library's argument checks, which are not part of this model.

## Findings

| source | as written | input that shows it | evidently intended | confidence | as-written member | corrected member |
|---|---|---|---|---|---|---|
| InventoryService/Messaging/OrderPlacedConsumer.cs:78 | The guard reads `message.Items.Count` outside any `try`. An explicit `"Items": null` overrides the list initializer, so the read throws `NullReferenceException` and the handler settles no verdict. The message then returns to the queue, is retried, and is eventually dead-lettered by the broker for a reason the handler never states. | the body `{"OrderId": 7, "Items": null}` | treat a null `Items` like an empty list and complete the message, as the guard does for a null message | medium, not executed | `OrderPlacedConsumer.HandleAsWritten` (exhibited by `OrderPlacedConsumer.AsWrittenLeavesNullItemsUnsettled`) | `OrderPlacedConsumer.Handle` (proved by `OrderPlacedConsumer.NullItemsCompleted` and `OrderPlacedConsumer.AsWrittenAgreesOtherwise`) |

=== FILE: consumer.dfy ===
/** `OrderPlacedConsumer.HandleMessageAsync` as a decision procedure: from a
    message body and the stock the store holds, the verdict the handler
    settles the message with and the stock the store holds afterwards. The
    store is the per-message unit of work: product lookups, in-memory
    updates, then one save that commits them all or nothing. Where the store
    fails is an input (`Fault`), as is nothing else: the handler is otherwise
    deterministic. Messages are handled one at a time (`MaxConcurrentCalls =
    1`), which `ProcessSequentially` models as a fold over deliveries. */
module OrderPlacedConsumer {
  import opened Primitives
  import opened ServiceBus
  import opened Inventory
  import Json
  import M = InventoryMessages

  const DeserializationFailed: string := "DeserializationFailed"

  /** Where a call inside the handler's `try` throws while one message is
      handled: the store at the lookup of the line with the given index, the
      store at the save (committing nothing), the broker at the
      `CompleteMessageAsync` that follows a save that committed, or
      nowhere. */
  datatype Fault = NoFault | LookupFails(line: nat) | SaveFails | CompleteFails

  /** The store calls a handler makes, in order. */
  datatype StoreOp = Lookup(productId: ProductId) | Save

  /** The verdict, the committed stock, and the store calls made. */
  datatype Handled = Handled(verdict: Verdict, stock: Stock, ops: seq<StoreOp>)

  /** The outcome of the `Deserialize` call: the exception, or the message,
      which may be null. */
  type Parsed = Json.Result<Option<M.OrderPlacedMessage>>

  function Parse(body: Body): (p: Parsed)
    ensures body.NotJson? ==> p.Failure?
    ensures body.WellFormed? ==> p == M.Deserialize(body.doc)
  {
    match body
    case NotJson => Json.Failure
    case WellFormed(doc) => M.Deserialize(doc)
  }

  // ---------------------------------------------------- the deduction loop

  predicate AllPresent(items: seq<Option<M.OrderItemMessage>>) {
    forall i :: 0 <= i < |items| ==> items[i].Some?
  }

  function Present(items: seq<Option<M.OrderItemMessage>>): (r: seq<M.OrderItemMessage>)
    requires AllPresent(items)
    ensures |r| == |items|
    ensures forall i :: 0 <= i < |items| ==> r[i] == items[i].value
  {
    seq(|items|, i requires 0 <= i < |items| => items[i].value)
  }

  function Lookups(items: seq<M.OrderItemMessage>): (ops: seq<StoreOp>)
    ensures |ops| == |items|
    ensures forall i :: 0 <= i < |items| ==> ops[i] == Lookup(items[i].productId)
  {
    seq(|items|, i requires 0 <= i < |items| => Lookup(items[i].productId))
  }

  /** Whether the store throws at a lookup of one of the first `n` lines. */
  predicate LookupFaultWithin(fault: Fault, n: nat) {
    fault.LookupFails? && fault.line < n
  }

  /** The state of the unit of work after the loop. */
  datatype Attempt = Attempt(pending: Stock, ops: seq<StoreOp>, failed: bool)

  /** The `foreach` over the lines: each line is looked up and, when the
      product exists, its stock updated in the unit of work. A null line
      throws (reading its `ProductId`) before any lookup; a failing lookup
      throws after being issued. The loop gets through iff neither happens,
      and then it holds exactly the lines applied in order, having looked
      each one up once. */
  function Deduction(items: seq<Option<M.OrderItemMessage>>, stock: Stock, fault: Fault): (a: Attempt)
    ensures !a.failed <==> AllPresent(items) && !LookupFaultWithin(fault, |items|)
    ensures !a.failed ==> a.pending == ApplyItems(stock, Present(items))
    ensures !a.failed ==> a.ops == Lookups(Present(items))
    ensures |a.ops| <= |items|
    ensures forall op :: op in a.ops ==> op.Lookup?
  {
    if |items| == 0 then Attempt(stock, [], false)
    else
      var k := |items| - 1;
      var prev := Deduction(items[..k], stock, fault);
      if prev.failed then
        assert !AllPresent(items[..k]) ==> !AllPresent(items);
        prev
      else match items[k]
        case None => Attempt(prev.pending, prev.ops, true)
        case Some(it) =>
          if fault == LookupFails(k) then Attempt(prev.pending, prev.ops + [Lookup(it.productId)], true)
          else
            PresentExtends(items);
            Attempt(ApplyItem(prev.pending, it), prev.ops + [Lookup(it.productId)], false)
  }

  /** A list whose earlier lines and last line are present is present, and
      its present lines and their lookups extend those of the earlier ones. */
  lemma PresentExtends(items: seq<Option<M.OrderItemMessage>>)
    requires |items| > 0 && AllPresent(items[..|items| - 1]) && items[|items| - 1].Some?
    ensures AllPresent(items)
    ensures Present(items)[..|items| - 1] == Present(items[..|items| - 1])
    ensures Lookups(Present(items)) ==
              Lookups(Present(items[..|items| - 1])) + [Lookup(items[|items| - 1].value.productId)]
  {
    var k := |items| - 1;
    assert forall i :: 0 <= i < k ==> items[..k][i] == items[i];
  }

  /** Whether the last store call was the save. */
  predicate SavedLast(ops: seq<StoreOp>) {
    |ops| > 0 && ops[|ops| - 1] == Save
  }

  /** Lines 84-117: a fresh unit of work, the loop, the save, the
      completion; `Complete` only once the save and the completion return.
      If the loop or the save throws, the message is abandoned with nothing
      committed. If the completion throws, the save has already committed:
      the message is abandoned with the lines deducted. */
  function Process(items: seq<Option<M.OrderItemMessage>>, stock: Stock, fault: Fault): (h: Handled)
    requires |items| > 0
    ensures h.verdict == Complete || h.verdict == Abandon
    ensures h.verdict == Complete <==> && AllPresent(items) && !LookupFaultWithin(fault, |items|)
                                       && fault != SaveFails && fault != CompleteFails
    ensures h.verdict == Complete ==> h.stock == ApplyItems(stock, Present(items))
    ensures h.verdict == Complete ==> h.ops == Lookups(Present(items)) + [Save]
    ensures SavedLast(h.ops) <==> AllPresent(items) && !LookupFaultWithin(fault, |items|)
    ensures h.verdict == Abandon && !(fault == CompleteFails && SavedLast(h.ops)) ==> h.stock == stock
    ensures fault == CompleteFails && AllPresent(items) ==>
              && h.verdict == Abandon
              && h.stock == ApplyItems(stock, Present(items))
              && h.ops == Lookups(Present(items)) + [Save]
  {
    var a := Deduction(items, stock, fault);
    if a.failed then
      assert |a.ops| > 0 ==> a.ops[|a.ops| - 1] in a.ops;
      Handled(Abandon, stock, a.ops)
    else if fault == SaveFails then Handled(Abandon, stock, a.ops + [Save])
    else if fault == CompleteFails then Handled(Abandon, a.pending, a.ops + [Save])
    else Handled(Complete, a.pending, a.ops + [Save])
  }

  // ---------------------------------------------------------- the handler

  /** The message's lines, a null list read as no lines. */
  function LinesOf(m: M.OrderPlacedMessage): (r: seq<Option<M.OrderItemMessage>>) {
    if m.items.Some? then m.items.value else []
  }

  /** Whether the handler has lines to work on. */
  predicate HasLines(p: Parsed) {
    p.Success? && p.value.Some? && |LinesOf(p.value.value)| > 0
  }

  /** Whether the save commits and the completion after it then throws:
      the message has lines, all of them present, and the fault is at
      `CompleteMessageAsync`. */
  predicate CommitsBeforeCompleting(p: Parsed, fault: Fault) {
    fault == CompleteFails && HasLines(p) && AllPresent(LinesOf(p.value.value))
  }

  /** The handler, with a null `Items` list handled like an empty one.
      Exactly one verdict for every message: a body that does not
      deserialize is dead-lettered and nothing else is; a message with no
      lines is completed without touching the store; otherwise the verdict
      is `Complete` with the lines committed, or `Abandon`. Only a
      completion that throws after the save was issued leaves an abandoned
      message's lines committed: no other verdict but `Complete` changes
      the stock.
      The set of products never changes. */
  function Handle(parsed: Parsed, stock: Stock, fault: Fault): (h: Handled)
    ensures h.verdict.DeadLetter? <==> parsed.Failure?
    ensures h.verdict.DeadLetter? ==> h.verdict.reason == DeserializationFailed && h.ops == []
    ensures h.verdict != Complete && !(fault == CompleteFails && SavedLast(h.ops)) ==> h.stock == stock
    ensures parsed.Success? && !HasLines(parsed) ==> h == Handled(Complete, stock, [])
    ensures HasLines(parsed) ==> h == Process(LinesOf(parsed.value.value), stock, fault)
    ensures h.stock.Keys == stock.Keys
    ensures NonNegative(stock) ==> NonNegative(h.stock)
  {
    match parsed
    case Failure => Handled(DeadLetter(DeserializationFailed), stock, [])
    case Success(None) => Handled(Complete, stock, [])
    case Success(Some(m)) =>
      var items := LinesOf(m);
      if |items| == 0 then Handled(Complete, stock, []) else Process(items, stock, fault)
  }

  /** A verdict other than `Complete` leaves the stock as it was, unless
      the save committed the lines before the completion threw. */
  lemma UncommittedKeepsStock(parsed: Parsed, stock: Stock, fault: Fault)
    requires Handle(parsed, stock, fault).verdict != Complete
    requires !CommitsBeforeCompleting(parsed, fault)
    ensures Handle(parsed, stock, fault).stock == stock
  {
    if HasLines(parsed) {
      var items := LinesOf(parsed.value.value);
      assert Handle(parsed, stock, fault) == Process(items, stock, fault);
    }
  }

  /** `Complete` is issued only after a save that succeeded, and the stock
      it leaves is the lines applied in order to the stock before. */
  lemma CompleteOnlyAfterSave(parsed: Parsed, stock: Stock, fault: Fault)
    requires Handle(parsed, stock, fault).verdict == Complete
    ensures var h := Handle(parsed, stock, fault);
            || (h.ops == [] && h.stock == stock && !HasLines(parsed))
            || (&& HasLines(parsed) && fault != SaveFails
                && |h.ops| > 0 && h.ops[|h.ops| - 1] == Save
                && AllPresent(LinesOf(parsed.value.value))
                && h.stock == ApplyItems(stock, Present(LinesOf(parsed.value.value))))
  {
  }

  /** Any fault in the store, or a null line, abandons the message and
      commits nothing. */
  lemma FaultAbandons(parsed: Parsed, stock: Stock, fault: Fault)
    requires HasLines(parsed)
    requires fault == SaveFails || LookupFaultWithin(fault, |LinesOf(parsed.value.value)|)
             || !AllPresent(LinesOf(parsed.value.value))
    ensures Handle(parsed, stock, fault).verdict == Abandon
    ensures Handle(parsed, stock, fault).stock == stock
  {
  }

  /** Stock that no line of the message names is left as it was, whatever
      the verdict. */
  lemma UntouchedProductsKeepStock(parsed: Parsed, stock: Stock, fault: Fault, p: ProductId)
    requires p in stock
    requires HasLines(parsed) ==>
               forall i :: 0 <= i < |LinesOf(parsed.value.value)| ==>
                 LinesOf(parsed.value.value)[i].Some? ==> LinesOf(parsed.value.value)[i].value.productId != p
    ensures Handle(parsed, stock, fault).stock[p] == stock[p]
  {
    if HasLines(parsed) && AllPresent(LinesOf(parsed.value.value)) {
      var items := Present(LinesOf(parsed.value.value));
      UnmentionedUnchanged(stock, items, p);
    }
  }

  // ------------------------------------------------------ as the code reads

  /** The handler exactly as written: the guard reads `message.Items.Count`
      outside the `try`, so a message whose `Items` is null throws there and
      the handler settles nothing (`None`). */
  function HandleAsWritten(parsed: Parsed, stock: Stock, fault: Fault): (r: Option<Handled>)
    ensures r.None? <==> parsed.Success? && parsed.value.Some? && parsed.value.value.items.None?
  {
    match parsed
    case Failure => Some(Handled(DeadLetter(DeserializationFailed), stock, []))
    case Success(None) => Some(Handled(Complete, stock, []))
    case Success(Some(m)) =>
      match m.items
      case None => None
      case Some(items) =>
        if |items| == 0 then Some(Handled(Complete, stock, [])) else Some(Process(items, stock, fault))
  }

  /** The body `{"OrderId": 7, "Items": null}` deserializes, yet the handler
      as written gives it no verdict. */
  lemma AsWrittenLeavesNullItemsUnsettled(stock: Stock, fault: Fault)
    ensures HandleAsWritten(Parse(WellFormed(Json.JObject([Json.Member("OrderId", Json.WriteInt32(7)),
                                                          Json.Member("Items", Json.JNull)]))),
                            stock, fault) == None
  {
    M.NullItemsReadAsNull(7);
  }

  /** On every other input the handler as written and `Handle` agree. */
  lemma AsWrittenAgreesOtherwise(parsed: Parsed, stock: Stock, fault: Fault)
    requires !(parsed.Success? && parsed.value.Some? && parsed.value.value.items.None?)
    ensures HandleAsWritten(parsed, stock, fault) == Some(Handle(parsed, stock, fault))
  {
  }

  /** `Handle` settles the null-`Items` message as the empty one. */
  lemma NullItemsCompleted(stock: Stock, fault: Fault)
    ensures Handle(Parse(WellFormed(Json.JObject([Json.Member("OrderId", Json.WriteInt32(7)),
                                                  Json.Member("Items", Json.JNull)]))),
                   stock, fault) == Handled(Complete, stock, [])
  {
    M.NullItemsReadAsNull(7);
  }

  // ------------------------------------------------------------ scenarios

  function OneLine(orderId: Int32, productId: Int32, quantity: Int32): (r: Parsed) {
    Json.Success(Some(M.DefaultMessage.(orderId := orderId,
      items := Some([Some(M.OrderItemMessage(productId, quantity, Decimal(0, 0)))]))))
  }

  /** Ten in stock, five ordered: five left, completed. */
  lemma ScenarioDeductsQuantity()
    ensures Handle(OneLine(101, 1, 5), map[1 := 10], NoFault).verdict == Complete
    ensures Handle(OneLine(101, 1, 5), map[1 := 10], NoFault).stock == map[1 := 5]
  {
    ApplyOne(map[1 := 10], M.OrderItemMessage(1, 5, Decimal(0, 0)));
  }

  /** Five in stock, fifty ordered: zero left, never negative, completed. */
  lemma ScenarioClampsAtZero()
    ensures Handle(OneLine(102, 1, 50), map[1 := 5], NoFault).verdict == Complete
    ensures Handle(OneLine(102, 1, 50), map[1 := 5], NoFault).stock == map[1 := 0]
  {
    ApplyOne(map[1 := 5], M.OrderItemMessage(1, 50, Decimal(0, 0)));
  }

  /** A body that is not JSON is dead-lettered. */
  lemma ScenarioMalformedBody(stock: Stock, fault: Fault)
    ensures Handle(Parse(NotJson), stock, fault) == Handled(DeadLetter("DeserializationFailed"), stock, [])
  {
  }

  /** An empty item list is completed with no store call. */
  lemma ScenarioEmptyItems(stock: Stock, fault: Fault)
    ensures Handle(Json.Success(Some(M.DefaultMessage.(orderId := 103))), stock, fault)
         == Handled(Complete, stock, [])
  {
  }

  /** A line for a product the store lacks is skipped: looked up, nothing
      changed, and the message still completes. */
  lemma ScenarioMissingProduct(stock: Stock)
    requires 999 !in stock
    ensures Handle(OneLine(104, 999, 3), stock, NoFault) == Handled(Complete, stock, [Lookup(999), Save])
  {
    ApplyOne(stock, M.OrderItemMessage(999, 3, Decimal(0, 0)));
  }

  // ------------------------------------------------ sequential processing

  /** One delivery of a message, and where a call fails while it is
      handled. A redelivery is another `Delivery` of the same envelope. */
  datatype Delivery = Delivery(envelope: Envelope, fault: Fault)

  function HandleDelivery(d: Delivery, stock: Stock): (r: Handled) {
    Handle(Parse(d.envelope.body), stock, d.fault)
  }

  /** A handler of one delivery against the stock the store holds. */
  type Handler = (Delivery, Stock) -> Handled

  /** The stock once every delivery has been handled by `step`, in order,
      each against the stock the earlier ones left. */
  function Run(step: Handler, stock: Stock, ds: seq<Delivery>): (r: Stock)
    decreases |ds|
  {
    if |ds| == 0 then stock
    else step(ds[|ds| - 1], Run(step, stock, ds[..|ds| - 1])).stock
  }

  /** A handler that keeps the set of products, and keeps every stock
      non-negative, keeps both over any number of deliveries. */
  lemma {:induction false} RunKeeps(step: Handler, stock: Stock, ds: seq<Delivery>)
    requires forall d, s :: step(d, s).stock.Keys == s.Keys
    requires forall d, s :: NonNegative(s) ==> NonNegative(step(d, s).stock)
    ensures Run(step, stock, ds).Keys == stock.Keys
    ensures NonNegative(stock) ==> NonNegative(Run(step, stock, ds))
    decreases |ds|
  {
    if |ds| > 0 {
      RunKeeps(step, stock, ds[..|ds| - 1]);
    }
  }

  /** The verdicts `step` gives the deliveries, in order, each against the
      stock the earlier ones left. */
  function Verdicts(step: Handler, stock: Stock, ds: seq<Delivery>): (r: seq<Verdict>)
    ensures |r| == |ds|
    decreases |ds|
  {
    if |ds| == 0 then []
    else
      var k := |ds| - 1;
      Verdicts(step, stock, ds[..k]) + [step(ds[k], Run(step, stock, ds[..k])).verdict]
  }

  /** Each delivery's verdict is the one it gets against the stock the
      deliveries before it left. */
  lemma {:induction false} VerdictsAt(step: Handler, stock: Stock, ds: seq<Delivery>)
    ensures forall i :: 0 <= i < |ds| ==>
              Verdicts(step, stock, ds)[i] == step(ds[i], Run(step, stock, ds[..i])).verdict
    decreases |ds|
  {
    if |ds| > 0 {
      var k := |ds| - 1;
      var earlier := Verdicts(step, stock, ds[..k]);
      assert Verdicts(step, stock, ds) == earlier + [step(ds[k], Run(step, stock, ds[..k])).verdict];
      VerdictsAt(step, stock, ds[..k]);
      forall i | 0 <= i < |ds|
        ensures Verdicts(step, stock, ds)[i] == step(ds[i], Run(step, stock, ds[..i])).verdict
      {
        if i < k {
          assert ds[..k][..i] == ds[..i];
          assert ds[..k][i] == ds[i];
          assert Verdicts(step, stock, ds)[i] == earlier[i];
        }
      }
    }
  }

  /** A processor with one concurrent call: it hands each delivery to
      `step` and waits for its verdict before starting the next, so each
      delivery meets the stock the previous ones left. */
  method RunInOrder(step: Handler, stock: Stock, ds: seq<Delivery>)
    returns (verdicts: seq<Verdict>, final: Stock)
    ensures |verdicts| == |ds|
    ensures forall i :: 0 <= i < |ds| ==> verdicts[i] == step(ds[i], Run(step, stock, ds[..i])).verdict
    ensures final == Run(step, stock, ds)
  {
    var current := stock;
    verdicts := [];
    var i := 0;
    while i < |ds|
      invariant 0 <= i <= |ds|
      invariant current == Run(step, stock, ds[..i])
      invariant verdicts == Verdicts(step, stock, ds[..i])
    {
      var h := step(ds[i], current);
      assert ds[..i + 1][..i] == ds[..i];
      verdicts := verdicts + [h.verdict];
      current := h.stock;
      i := i + 1;
    }
    assert ds[..|ds|] == ds;
    VerdictsAt(step, stock, ds);
    final := current;
  }

  /** Handling one delivery keeps the set of products and keeps every
      stock non-negative. */
  lemma HandleDeliveryKeeps()
    ensures forall d, s :: HandleDelivery(d, s).stock.Keys == s.Keys
    ensures forall d, s :: NonNegative(s) ==> NonNegative(HandleDelivery(d, s).stock)
  {
  }

  /** The stock once every delivery has been handled, in order, by the
      corrected handler `Handle`. */
  function StockAfter(stock: Stock, ds: seq<Delivery>): (r: Stock)
    ensures r.Keys == stock.Keys
    ensures NonNegative(stock) ==> NonNegative(r)
  {
    HandleDeliveryKeeps();
    RunKeeps(HandleDelivery, stock, ds);
    Run(HandleDelivery, stock, ds)
  }

  /** The processor with one concurrent call: each delivery is handled by
      the corrected handler `Handle` to its verdict against the stock the
      previous ones left before the next is started. Every stock count
      stays non-negative throughout. */
  method ProcessSequentially(stock: Stock, ds: seq<Delivery>) returns (verdicts: seq<Verdict>, final: Stock)
    requires NonNegative(stock)
    ensures |verdicts| == |ds|
    ensures forall i :: 0 <= i < |ds| ==>
              verdicts[i] == HandleDelivery(ds[i], StockAfter(stock, ds[..i])).verdict
    ensures final == StockAfter(stock, ds)
    ensures final.Keys == stock.Keys
    ensures NonNegative(final)
  {
    verdicts, final := RunInOrder(HandleDelivery, stock, ds);
  }

  lemma StockAfterOne(stock: Stock, d: Delivery)
    ensures StockAfter(stock, [d]) == HandleDelivery(d, stock).stock
  {
    assert [d][..0] == [];
    assert Run(HandleDelivery, stock, [d]) == HandleDelivery(d, Run(HandleDelivery, stock, [])).stock;
  }

  lemma StockAfterTwo(stock: Stock, d: Delivery, e: Delivery)
    ensures StockAfter(stock, [d, e]) == HandleDelivery(e, HandleDelivery(d, stock).stock).stock
  {
    assert [d, e][..1] == [d];
    assert [d][..0] == [];
    assert Run(HandleDelivery, stock, [d]) == HandleDelivery(d, stock).stock;
  }

  /** No idempotency key travels with the event: a message delivered twice
      is deducted twice. */
  lemma RedeliveryDeductsTwice(d: Delivery, stock: Stock)
    requires d.fault == NoFault && HasLines(Parse(d.envelope.body))
    requires AllPresent(LinesOf(Parse(d.envelope.body).value.value))
    ensures var items := Present(LinesOf(Parse(d.envelope.body).value.value));
            StockAfter(stock, [d, d]) == ApplyItems(ApplyItems(stock, items), items)
  {
    StockAfterTwo(stock, d, d);
  }

  /** Ten in stock and a line ordering three, delivered twice: four left. */
  lemma RedeliveryExample(d: Delivery)
    requires d.fault == NoFault && Parse(d.envelope.body) == OneLine(105, 1, 3)
    ensures StockAfter(map[1 := 10], [d, d]) == map[1 := 4]
  {
    var it := M.OrderItemMessage(1, 3, Decimal(0, 0));
    RedeliveryDeductsTwice(d, map[1 := 10]);
    assert Present(LinesOf(OneLine(105, 1, 3).value.value)) == [it];
    ApplyOne(map[1 := 10], it);
    ApplyOne(map[1 := 7], it);
  }

  /** An attempt abandoned before anything committed (a null line, or a
      failing lookup or save) leaves no trace: abandoning and then handling
      the redelivery ends where handling it once would. */
  lemma AbandonedAttemptLeavesNoTrace(d: Delivery, retry: Delivery, stock: Stock)
    requires HandleDelivery(d, stock).verdict == Abandon
    requires !CommitsBeforeCompleting(Parse(d.envelope.body), d.fault)
    requires retry.envelope == d.envelope
    ensures StockAfter(stock, [d, retry]) == StockAfter(stock, [retry])
  {
    UncommittedKeepsStock(Parse(d.envelope.body), stock, d.fault);
    StockAfterTwo(stock, d, retry);
    StockAfterOne(stock, retry);
  }

  /** An attempt abandoned because its completion threw after the save has
      committed its lines: the redelivery deducts them again, so the
      message's lines are deducted twice though it completed once. */
  lemma CommittedThenAbandonedDeductsTwice(d: Delivery, retry: Delivery, stock: Stock)
    requires d.fault == CompleteFails && retry.fault == NoFault && retry.envelope == d.envelope
    requires HasLines(Parse(d.envelope.body)) && AllPresent(LinesOf(Parse(d.envelope.body).value.value))
    ensures var items := Present(LinesOf(Parse(d.envelope.body).value.value));
            && HandleDelivery(d, stock).verdict == Abandon
            && HandleDelivery(retry, HandleDelivery(d, stock).stock).verdict == Complete
            && StockAfter(stock, [d, retry]) == ApplyItems(ApplyItems(stock, items), items)
  {
    StockAfterTwo(stock, d, retry);
  }
}

=== FILE: inventory.dfy ===
/** InventoryService's stock records as the consumer sees them: a map from
    the externally assigned product id to `UnitsInStock`, and the deduction
    one order line makes, `Math.Max(0, UnitsInStock - Quantity)` in unchecked
    32-bit arithmetic. */
module Inventory {
  import opened Primitives
  import M = InventoryMessages

  type ProductId = Int32

  /** Units in stock per product; a product id absent from the map is a
      product the store does not have. */
  type Stock = map<ProductId, Int32>

  predicate NonNegative(s: Stock) {
    forall p :: p in s ==> s[p] >= 0
  }

  function Max(a: int, b: int): (r: int) {
    if a >= b then a else b
  }

  /** The stock after one line: never negative whatever the operands. With a
      non-negative stock and quantity nothing wraps, so the result is the
      clamped difference; a quantity larger than the stock empties it. */
  function Deduct(units: Int32, quantity: Int32): (r: Int32)
    ensures r >= 0
    ensures 0 <= units && 0 <= quantity ==> r == Max(0, units - quantity)
    ensures 0 <= quantity <= units ==> r == units - quantity
    ensures 0 <= units < quantity ==> r == 0
  {
    Max(0, Sub32(units, quantity))
  }

  /** Nothing validates `Quantity`: a negative quantity raises the stock,
      as long as the sum still fits in an `int`. */
  lemma NegativeQuantityRaisesStock(units: Int32, quantity: Int32)
    requires 0 <= units && quantity < 0 && units - quantity <= MaxInt32
    ensures Deduct(units, quantity) == units - quantity > units
  {
  }

  /** When it does not fit, the subtraction wraps to a negative number and
      the clamp turns it into an empty stock. */
  lemma NegativeQuantityOverflowEmpties()
    ensures Deduct(MaxInt32, -1) == 0
    ensures Deduct(2_000_000_000, -500_000_000) == 0
  {
  }

  /** One order line: a product the store does not have is skipped; an
      existing one has the line's quantity deducted. Only that product's
      entry can change, and no product is added or removed. */
  function ApplyItem(s: Stock, it: M.OrderItemMessage): (r: Stock)
    ensures r.Keys == s.Keys
    ensures forall p :: p in s && p != it.productId ==> r[p] == s[p]
    ensures it.productId in s ==> r[it.productId] == Deduct(s[it.productId], it.quantity)
    ensures NonNegative(s) ==> NonNegative(r)
  {
    if it.productId in s then s[it.productId := Deduct(s[it.productId], it.quantity)] else s
  }

  /** Whether any line names product `p`. */
  predicate Mentions(items: seq<M.OrderItemMessage>, p: ProductId) {
    exists i :: 0 <= i < |items| && items[i].productId == p
  }

  /** The lines applied in list order, each against the stock as the lines
      before it left it. The set of products never changes and a
      non-negative store stays non-negative. */
  function ApplyItems(s: Stock, items: seq<M.OrderItemMessage>): (r: Stock)
    ensures r.Keys == s.Keys
    ensures NonNegative(s) ==> NonNegative(r)
  {
    if |items| == 0 then s
    else ApplyItem(ApplyItems(s, items[..|items| - 1]), items[|items| - 1])
  }

  // ------------------------------------------------ per-product reference

  /** The quantities of the lines naming `p`, in list order. */
  function QuantitiesFor(items: seq<M.OrderItemMessage>, p: ProductId): (r: seq<Int32>) {
    if |items| == 0 then []
    else
      var init := QuantitiesFor(items[..|items| - 1], p);
      if items[|items| - 1].productId == p then init + [items[|items| - 1].quantity] else init
  }

  /** Successive deductions of `qs` from one stock count. */
  function DeductAll(units: Int32, qs: seq<Int32>): (r: Int32) {
    if |qs| == 0 then units else Deduct(DeductAll(units, qs[..|qs| - 1]), qs[|qs| - 1])
  }

  /** Each product evolves on its own: its final stock is its own lines'
      quantities deducted one after another, whatever other products the
      message names and however the lines are interleaved. */
  lemma {:induction false} ApplyItemsPerProduct(s: Stock, items: seq<M.OrderItemMessage>, p: ProductId)
    requires p in s
    ensures ApplyItems(s, items)[p] == DeductAll(s[p], QuantitiesFor(items, p))
  {
    if |items| > 0 {
      var init := items[..|items| - 1];
      ApplyItemsPerProduct(s, init, p);
      var qs := QuantitiesFor(items, p);
      if items[|items| - 1].productId == p {
        assert qs[..|qs| - 1] == QuantitiesFor(init, p);
      }
    }
  }

  /** Products no line names keep their stock. */
  lemma {:induction false} UnmentionedUnchanged(s: Stock, items: seq<M.OrderItemMessage>, p: ProductId)
    requires p in s && !Mentions(items, p)
    ensures ApplyItems(s, items)[p] == s[p]
  {
    if |items| > 0 {
      var init := items[..|items| - 1];
      forall i | 0 <= i < |init| ensures init[i].productId != p {
        assert init[i] == items[i];
      }
      assert items[|items| - 1].productId != p;
      UnmentionedUnchanged(s, init, p);
    }
  }

  /** Every product a line names ends with a non-negative stock, even one
      that started below zero. */
  lemma MentionedNonNegative(s: Stock, items: seq<M.OrderItemMessage>, p: ProductId)
    requires p in s && Mentions(items, p)
    ensures ApplyItems(s, items)[p] >= 0
  {
    ApplyItemsPerProduct(s, items, p);
    QuantitiesMentioned(items, p);
  }

  lemma {:induction false} QuantitiesMentioned(items: seq<M.OrderItemMessage>, p: ProductId)
    requires Mentions(items, p)
    ensures |QuantitiesFor(items, p)| > 0
  {
    var init := items[..|items| - 1];
    if items[|items| - 1].productId != p {
      var i :| 0 <= i < |items| && items[i].productId == p;
      assert init[i].productId == p;
      QuantitiesMentioned(init, p);
    }
  }

  function Sum(qs: seq<Int32>): (r: int) {
    if |qs| == 0 then 0 else Sum(qs[..|qs| - 1]) + qs[|qs| - 1]
  }

  /** With non-negative quantities, deducting one after another is the same
      as deducting the total once and clamping at zero. */
  lemma {:induction false} DeductAllIsClampedTotal(units: Int32, qs: seq<Int32>)
    requires units >= 0
    requires forall i :: 0 <= i < |qs| ==> qs[i] >= 0
    ensures DeductAll(units, qs) == Max(0, units - Sum(qs))
  {
    if |qs| > 0 {
      DeductAllIsClampedTotal(units, qs[..|qs| - 1]);
    }
  }

  /** For orders with non-negative quantities, a product's stock drops by
      the total its lines order, or to zero when they order more than it
      has. */
  lemma StockAfterOrder(s: Stock, items: seq<M.OrderItemMessage>, p: ProductId)
    requires p in s && s[p] >= 0
    requires forall i :: 0 <= i < |items| ==> items[i].quantity >= 0
    ensures ApplyItems(s, items)[p] == Max(0, s[p] - Sum(QuantitiesFor(items, p)))
  {
    ApplyItemsPerProduct(s, items, p);
    QuantitiesNonNegative(items, p);
    DeductAllIsClampedTotal(s[p], QuantitiesFor(items, p));
  }

  lemma {:induction false} QuantitiesNonNegative(items: seq<M.OrderItemMessage>, p: ProductId)
    requires forall i :: 0 <= i < |items| ==> items[i].quantity >= 0
    ensures forall i :: 0 <= i < |QuantitiesFor(items, p)| ==> QuantitiesFor(items, p)[i] >= 0
  {
    if |items| > 0 {
      QuantitiesNonNegative(items[..|items| - 1], p);
    }
  }

  // ----------------------------------------------------------- ordering

  /** Applying a list is applying its first part and then, to the result,
      the rest. */
  lemma {:induction false} ApplyItemsAppend(s: Stock, a: seq<M.OrderItemMessage>, b: seq<M.OrderItemMessage>)
    ensures ApplyItems(s, a + b) == ApplyItems(ApplyItems(s, a), b)
  {
    if |b| == 0 {
      assert a + b == a;
    } else {
      var ab := a + b;
      var b' := b[..|b| - 1];
      assert ab[..|ab| - 1] == a + b';
      assert ab[|ab| - 1] == b[|b| - 1];
      ApplyItemsAppend(s, a, b');
      assert ApplyItems(s, ab) == ApplyItem(ApplyItems(s, a + b'), b[|b| - 1]);
    }
  }

  /** A line naming a product the store does not have changes nothing, and
      the lines around it are applied exactly as if it were not there. */
  lemma SkipMissingProduct(s: Stock, a: seq<M.OrderItemMessage>, x: M.OrderItemMessage,
                           b: seq<M.OrderItemMessage>)
    requires x.productId !in s
    ensures ApplyItems(s, a + [x] + b) == ApplyItems(s, a + b)
  {
    ApplyItemsAppend(s, a + [x], b);
    ApplyItemsAppend(s, a, [x]);
    assert ApplyItems(ApplyItems(s, a), [x]) == ApplyItems(s, a) by {
      assert [x][..0] == [];
    }
    ApplyItemsAppend(s, a, b);
  }

  lemma ApplyOne(s: Stock, x: M.OrderItemMessage)
    ensures ApplyItems(s, [x]) == ApplyItem(s, x)
  {
    assert [x][..0] == [];
  }

  lemma ApplyTwo(s: Stock, x: M.OrderItemMessage, y: M.OrderItemMessage)
    ensures ApplyItems(s, [x, y]) == ApplyItem(ApplyItem(s, x), y)
  {
    assert [x, y][..1] == [x];
    ApplyOne(s, x);
  }

  /** Each line sees the stock earlier lines left: the same two lines in
      the other order can end differently. */
  lemma LinesApplyInOrder()
    ensures var take := M.OrderItemMessage(1, 10, Decimal(0, 0));
            var raise := M.OrderItemMessage(1, -5, Decimal(0, 0));
            && ApplyItems(map[1 := 5], [take, raise]) == map[1 := 5]
            && ApplyItems(map[1 := 5], [raise, take]) == map[1 := 0]
  {
    var take := M.OrderItemMessage(1, 10, Decimal(0, 0));
    var raise := M.OrderItemMessage(1, -5, Decimal(0, 0));
    ApplyTwo(map[1 := 5], take, raise);
    ApplyTwo(map[1 := 5], raise, take);
    NegativeQuantityRaisesStock(5, -5);
    NegativeQuantityRaisesStock(0, -5);
  }
}

=== FILE: inventory_messages.dfy ===
/** InventoryService's own copy of the OrderPlaced event and the way the
    consumer reads it from a message body: `JsonSerializer.Deserialize` with
    case-insensitive property names. JSON null sets a reference-typed property
    (the customer, the item list, an item) to null, so those carry `Option`. */
module InventoryMessages {
  import opened Primitives
  import opened Json
  import Iso8601

  datatype OrderItemMessage = OrderItemMessage(productId: Int32, quantity: Int32, unitPrice: Decimal)

  datatype OrderPlacedMessage = OrderPlacedMessage(
    orderId: Int32,
    customerId: Option<string>,
    placedAt: Iso8601.UtcTime,
    items: Option<seq<Option<OrderItemMessage>>>)

  /** A freshly constructed item: every property at its CLR default. */
  const DefaultItem: OrderItemMessage := OrderItemMessage(0, 0, Decimal(0, 0))

  /** A freshly constructed message: `CustomerId` is the empty string and
      `Items` an empty list, the rest CLR defaults. */
  const DefaultMessage: OrderPlacedMessage := OrderPlacedMessage(0, Some(""), Iso8601.MinValue, Some([]))

  /** The consumer asks for case-insensitive property names. */
  const IgnoreCase: bool := true

  function ReadItem(j: Json): (r: Result<Option<OrderItemMessage>>)
    ensures j.JNull? ==> r == Success(None)
    ensures !j.JNull? && !j.JObject? ==> r.Failure?
  {
    match j
    case JNull => Success(None)
    case JObject(ms) =>
      var productId :- ReadProperty(ms, "ProductId", IgnoreCase, ReadInt32, DefaultItem.productId);
      var quantity :- ReadProperty(ms, "Quantity", IgnoreCase, ReadInt32, DefaultItem.quantity);
      var unitPrice :- ReadProperty(ms, "UnitPrice", IgnoreCase, ReadDecimal, DefaultItem.unitPrice);
      Success(Some(OrderItemMessage(productId, quantity, unitPrice)))
    case _ => Failure
  }

  /** Reads the elements of the `Items` array in order; one bad element
      fails the whole read. */
  function ReadItemList(es: seq<Json>): (r: Result<seq<Option<OrderItemMessage>>>)
    ensures r.Success? ==> |r.value| == |es|
    ensures r.Success? <==> forall i :: 0 <= i < |es| ==> ReadItem(es[i]).Success?
    ensures r.Success? ==> forall i :: 0 <= i < |es| ==> r.value[i] == ReadItem(es[i]).value
  {
    if |es| == 0 then Success([])
    else
      var init :- ReadItemList(es[..|es| - 1]);
      var last :- ReadItem(es[|es| - 1]);
      Success(init + [last])
  }

  function ReadItems(j: Json): (r: Result<Option<seq<Option<OrderItemMessage>>>>)
    ensures j.JNull? ==> r == Success(None)
    ensures r.Success? && r.value.Some? ==> j.JArray? && |r.value.value| == |j.elems|
  {
    match j
    case JNull => Success(None)
    case JArray(es) =>
      var items :- ReadItemList(es);
      Success(Some(items))
    case _ => Failure
  }

  /** `JsonSerializer.Deserialize<OrderPlacedMessage>`: a null document
      gives a null message, an object gives a message, anything else (or
      any property of the wrong type) throws. */
  function Deserialize(doc: Json): (r: Result<Option<OrderPlacedMessage>>)
    ensures doc.JNull? <==> r == Success(None)
    ensures !doc.JNull? && !doc.JObject? ==> r.Failure?
    ensures doc == JObject([]) ==> r == Success(Some(DefaultMessage))
  {
    match doc
    case JNull => Success(None)
    case JObject(ms) =>
      var orderId :- ReadProperty(ms, "OrderId", IgnoreCase, ReadInt32, DefaultMessage.orderId);
      var customerId :- ReadProperty(ms, "CustomerId", IgnoreCase, ReadString, DefaultMessage.customerId);
      var placedAt :- ReadProperty(ms, "PlacedAt", IgnoreCase, ReadDateTime, DefaultMessage.placedAt);
      var items :- ReadProperty(ms, "Items", IgnoreCase, ReadItems, DefaultMessage.items);
      Success(Some(OrderPlacedMessage(orderId, customerId, placedAt, items)))
    case _ => Failure
  }

  /** An object whose four properties all read successfully deserializes to
      the message holding exactly those values. */
  lemma DeserializeObject(ms: seq<Member>)
    requires ReadProperty(ms, "OrderId", IgnoreCase, ReadInt32, DefaultMessage.orderId).Success?
    requires ReadProperty(ms, "CustomerId", IgnoreCase, ReadString, DefaultMessage.customerId).Success?
    requires ReadProperty(ms, "PlacedAt", IgnoreCase, ReadDateTime, DefaultMessage.placedAt).Success?
    requires ReadProperty(ms, "Items", IgnoreCase, ReadItems, DefaultMessage.items).Success?
    ensures Deserialize(JObject(ms)) == Success(Some(OrderPlacedMessage(
      ReadProperty(ms, "OrderId", IgnoreCase, ReadInt32, DefaultMessage.orderId).value,
      ReadProperty(ms, "CustomerId", IgnoreCase, ReadString, DefaultMessage.customerId).value,
      ReadProperty(ms, "PlacedAt", IgnoreCase, ReadDateTime, DefaultMessage.placedAt).value,
      ReadProperty(ms, "Items", IgnoreCase, ReadItems, DefaultMessage.items).value)))
  {
  }

  /** Absent properties keep their defaults: a body naming only the order id
      reads as a message with an empty customer and an empty item list. */
  lemma AbsentPropertiesDefault(id: Int32)
    ensures Deserialize(JObject([Member("orderId", WriteInt32(id))]))
         == Success(Some(DefaultMessage.(orderId := id)))
  {
    var ms := [Member("orderId", WriteInt32(id))];
    assert Fold("orderId") == Fold("OrderId");
    assert Fold("orderId") != Fold("CustomerId");
    assert Fold("orderId") != Fold("PlacedAt");
    assert Fold("orderId") != Fold("Items");
    assert ms[..0] == [];
  }

  /** Deserialization matches names ignoring case: renaming members to any
      other casing reads to the same message. */
  lemma {:induction false} DeserializeIgnoresCase(a: seq<Member>, b: seq<Member>)
    requires SameUpToCase(a, b)
    ensures Deserialize(JObject(a)) == Deserialize(JObject(b))
  {
    ReadPropertyIgnoresCase(a, b, "OrderId", ReadInt32, DefaultMessage.orderId);
    ReadPropertyIgnoresCase(a, b, "CustomerId", ReadString, DefaultMessage.customerId);
    ReadPropertyIgnoresCase(a, b, "PlacedAt", ReadDateTime, DefaultMessage.placedAt);
    ReadPropertyIgnoresCase(a, b, "Items", ReadItems, DefaultMessage.items);
  }

  /** A body whose `Items` member is JSON null reads as a message whose
      `Items` list is itself null (not empty). */
  lemma NullItemsReadAsNull(id: Int32)
    ensures Deserialize(JObject([Member("OrderId", WriteInt32(id)), Member("Items", JNull)]))
         == Success(Some(DefaultMessage.(orderId := id, items := None)))
  {
    var ms := [Member("OrderId", WriteInt32(id)), Member("Items", JNull)];
    assert Fold("OrderId") != Fold("Items");
    assert Fold("Items") != Fold("OrderId");
    assert Fold("Items") != Fold("CustomerId");
    assert Fold("Items") != Fold("PlacedAt");
    assert Fold("OrderId") != Fold("CustomerId");
    assert Fold("OrderId") != Fold("PlacedAt");
    assert ms[..1] == [ms[0]];
    assert ms[..1][..0] == [];
    assert ReadProperty(ms, "OrderId", IgnoreCase, ReadInt32, DefaultMessage.orderId) == Success(id);
    assert ReadProperty(ms, "CustomerId", IgnoreCase, ReadString, DefaultMessage.customerId)
        == Success(DefaultMessage.customerId);
    assert ReadProperty(ms, "PlacedAt", IgnoreCase, ReadDateTime, DefaultMessage.placedAt)
        == Success(DefaultMessage.placedAt);
    assert ReadProperty(ms, "Items", IgnoreCase, ReadItems, DefaultMessage.items) == Success(None);
  }

  /** A number where the order id should be an integer, or a string where
      it should be a number, makes the whole read fail. */
  lemma WrongTypeFails(s: string)
    ensures Deserialize(JObject([Member("OrderId", JString(s))])).Failure?
    ensures Deserialize(JObject([Member("OrderId", JNumber(Decimal(15, 1)))])).Failure?
  {
    assert [Member("OrderId", JString(s))][..0] == [];
    assert [Member("OrderId", JNumber(Decimal(15, 1)))][..0] == [];
  }
}

=== FILE: iso8601.dfy ===
/** UTC date-times and the ISO 8601 text form in which the message body
    carries them (`2024-05-01T09:30:00.25Z`): four-digit year, two-digit
    fields, an optional fraction of up to seven digits with trailing zeros
    dropped, and a closing `Z`. */
module Iso8601 {
  import opened Primitives

  const TicksPerSecond: nat := 10_000_000

  /** A calendar instant; `fraction` counts 100-nanosecond ticks. */
  datatype DateTime = DateTime(year: int, month: int, day: int,
                               hour: int, minute: int, second: int, fraction: int)
  {
    predicate Valid() {
      && 1 <= year <= 9999
      && 1 <= month <= 12
      && 1 <= day <= DaysInMonth(year, month)
      && 0 <= hour < 24
      && 0 <= minute < 60
      && 0 <= second < 60
      && 0 <= fraction < TicksPerSecond
    }
  }

  /** A date-time that .NET's `DateTime` can hold. */
  type UtcTime = t: DateTime | t.Valid() witness DateTime(1, 1, 1, 0, 0, 0, 0)

  /** `DateTime.MinValue`, the value of a `DateTime` property nobody set. */
  const MinValue: UtcTime := DateTime(1, 1, 1, 0, 0, 0, 0)

  predicate IsLeapYear(y: int) {
    y % 4 == 0 && (y % 100 != 0 || y % 400 == 0)
  }

  function DaysInMonth(y: int, m: int): (n: int)
    ensures 28 <= n <= 31
    ensures m == 2 ==> (n == 29 <==> IsLeapYear(y))
  {
    if m == 2 then (if IsLeapYear(y) then 29 else 28)
    else if m == 4 || m == 6 || m == 9 || m == 11 then 30
    else 31
  }

  // ---------------------------------------------------------------- digits

  predicate IsDigit(c: char) {
    '0' <= c <= '9'
  }

  predicate AllDigits(s: string) {
    forall i :: 0 <= i < |s| ==> IsDigit(s[i])
  }

  function Pow10(n: nat): (r: nat)
    ensures r >= 1
  {
    if n == 0 then 1 else 10 * Pow10(n - 1)
  }

  /** `n` written in exactly `width` decimal digits, most significant first. */
  function Digits(n: nat, width: nat): (s: string)
    ensures |s| == width
    ensures AllDigits(s)
  {
    if width == 0 then []
    else Digits(n / 10, width - 1) + [('0' as int + n % 10) as char]
  }

  /** The number a string of decimal digits denotes. */
  function ValueOf(s: string): (r: nat)
    requires AllDigits(s)
  {
    if |s| == 0 then 0
    else ValueOf(s[..|s| - 1]) * 10 + (s[|s| - 1] as int - '0' as int)
  }

  lemma {:induction false} ValueOfDigits(n: nat, width: nat)
    requires n < Pow10(width)
    ensures ValueOf(Digits(n, width)) == n
  {
    if width > 0 {
      var s := Digits(n, width);
      assert s[..|s| - 1] == Digits(n / 10, width - 1);
      ValueOfDigits(n / 10, width - 1);
    }
  }

  function Zeros(n: nat): (s: string)
    ensures |s| == n
    ensures forall i :: 0 <= i < n ==> s[i] == '0'
  {
    seq(n, _ => '0')
  }

  lemma {:induction false} ValueOfZeros(n: nat)
    ensures ValueOf(Zeros(n)) == 0
  {
    if n > 0 {
      assert Zeros(n)[..n - 1] == Zeros(n - 1);
      ValueOfZeros(n - 1);
    }
  }

  /** Drops trailing '0' characters. */
  function TrimZeros(s: string): (t: string)
    ensures |t| <= |s| && t == s[..|t|]
    ensures t + Zeros(|s| - |t|) == s
    ensures |t| > 0 ==> t[|t| - 1] != '0'
  {
    if |s| == 0 then s
    else if s[|s| - 1] == '0' then
      var t := TrimZeros(s[..|s| - 1]);
      assert t + Zeros(|s| - |t|) == (t + Zeros(|s| - 1 - |t|)) + ['0'];
      t
    else s
  }

  // ---------------------------------------------------------------- format

  /** The fraction part: empty for a whole second, otherwise '.' and the
      seven tick digits without trailing zeros. */
  function FractionText(fraction: nat): (r: string) {
    if fraction == 0 then "" else "." + TrimZeros(Digits(fraction, 7))
  }

  /** Everything up to the seconds: `yyyy-MM-ddTHH:mm:ss`. */
  function Head(t: UtcTime): (r: string) {
    Digits(t.year, 4) + "-" + Digits(t.month, 2) + "-" + Digits(t.day, 2)
    + "T" + Digits(t.hour, 2) + ":" + Digits(t.minute, 2) + ":" + Digits(t.second, 2)
  }

  function Format(t: UtcTime): (r: string) {
    Head(t) + FractionText(t.fraction) + "Z"
  }

  // ----------------------------------------------------------------- parse

  /** `yyyy-MM-ddTHH:mm:ss`, every field in digits. */
  predicate HeadShape(h: string) {
    && |h| == 19
    && AllDigits(h[0..4]) && h[4] == '-' && AllDigits(h[5..7]) && h[7] == '-'
    && AllDigits(h[8..10]) && h[10] == 'T' && AllDigits(h[11..13]) && h[13] == ':'
    && AllDigits(h[14..16]) && h[16] == ':' && AllDigits(h[17..19])
  }

  /** The ticks a fraction part denotes; `None` when it is malformed. */
  function ParseFraction(f: string): (r: Option<nat>)
    ensures r.Some? ==> r.value < TicksPerSecond
  {
    if |f| == 0 then Some(0)
    else if f[0] == '.' && 2 <= |f| <= 8 && AllDigits(f[1..]) then
      var padded := f[1..] + Zeros(8 - |f|);
      assert |padded| == 7;
      ValueBound(padded);
      Some(ValueOf(padded))
    else None
  }

  lemma {:induction false} ValueBound(s: string)
    requires AllDigits(s)
    ensures ValueOf(s) < Pow10(|s|)
  {
    if |s| > 0 {
      ValueBound(s[..|s| - 1]);
    }
  }

  /** Reads the text form back: the nineteen-character date and time, an
      optional fraction of one to seven digits, and a closing `Z`; `None`
      for any other text and for a date or time out of range. The fraction
      may end in zeros, which `Format` never writes, so `Parse` accepts
      more texts than `Format` produces. */
  function Parse(s: string): (r: Option<UtcTime>)
    ensures r.Some? ==> |s| >= 20 && s[|s| - 1] == 'Z' && HeadShape(s[..19])
    ensures r.Some? ==> |s| == 20 || (s[19] == '.' && 22 <= |s| <= 28 && AllDigits(s[20..|s| - 1]))
  {
    if |s| < 20 || s[|s| - 1] != 'Z' then None
    else
      var h := s[..19];
      if !HeadShape(h) then None
      else match ParseFraction(s[19..|s| - 1])
        case None => None
        case Some(f) =>
          var t := DateTime(ValueOf(h[0..4]), ValueOf(h[5..7]), ValueOf(h[8..10]),
                            ValueOf(h[11..13]), ValueOf(h[14..16]), ValueOf(h[17..19]), f);
          if t.Valid() then Some(t) else None
  }

  // ------------------------------------------------------------ round trip

  lemma FractionRoundTrip(fraction: nat)
    requires fraction < TicksPerSecond
    ensures ParseFraction(FractionText(fraction)) == Some(fraction)
  {
    if fraction > 0 {
      var d := Digits(fraction, 7);
      var t := TrimZeros(d);
      ValueOfDigits(fraction, 7);
      if |t| == 0 {
        assert d == Zeros(7);
        ValueOfZeros(7);
        assert false;
      }
      var f := FractionText(fraction);
      assert f[1..] == t;
      assert forall i :: 0 <= i < |t| ==> t[i] == d[i];
      assert f[1..] + Zeros(8 - |f|) == d;
    }
  }

  lemma HeadRoundTrip(t: UtcTime)
    ensures HeadShape(Head(t))
    ensures ValueOf(Head(t)[0..4]) == t.year && ValueOf(Head(t)[5..7]) == t.month
    ensures ValueOf(Head(t)[8..10]) == t.day && ValueOf(Head(t)[11..13]) == t.hour
    ensures ValueOf(Head(t)[14..16]) == t.minute && ValueOf(Head(t)[17..19]) == t.second
  {
    var h := Head(t);
    assert h[0..4] == Digits(t.year, 4);
    assert h[5..7] == Digits(t.month, 2);
    assert h[8..10] == Digits(t.day, 2);
    assert h[11..13] == Digits(t.hour, 2);
    assert h[14..16] == Digits(t.minute, 2);
    assert h[17..19] == Digits(t.second, 2);
    ValueOfDigits(t.year, 4);
    ValueOfDigits(t.month, 2);
    ValueOfDigits(t.day, 2);
    ValueOfDigits(t.hour, 2);
    ValueOfDigits(t.minute, 2);
    ValueOfDigits(t.second, 2);
  }

  /** Every instant survives being written and read back. */
  lemma ParseFormat(t: UtcTime)
    ensures Parse(Format(t)) == Some(t)
  {
    var s := Format(t);
    var h := Head(t);
    assert s[..19] == h;
    assert s[19..|s| - 1] == FractionText(t.fraction);
    HeadRoundTrip(t);
    FractionRoundTrip(t.fraction);
  }

  /** Distinct instants never share a text form. */
  lemma FormatInjective(a: UtcTime, b: UtcTime)
    requires Format(a) == Format(b)
    ensures a == b
  {
    ParseFormat(a);
    ParseFormat(b);
  }
}

=== FILE: json.dfy ===
/** The JSON documents that travel as message bodies, and the pieces of
    `System.Text.Json` the two services rely on: how a CLR property is read
    from a JSON object (names matched ignoring case when the reader asks for
    it, unknown members skipped, a repeated member decoded every time and the
    last one kept, a missing member leaving the property's default) and how
    the scalar property types are written and read. */
module Json {
  import opened Primitives
  import Iso8601

  datatype Json =
    | JNull
    | JBool(b: bool)
    | JNumber(n: Decimal)
    | JString(s: string)
    | JArray(elems: seq<Json>)
    | JObject(members: seq<Member>)

  datatype Member = Member(name: string, value: Json)

  /** The outcome of reading: a value, or the `JsonException` the reader throws. */
  datatype Result<+T> = Failure | Success(value: T)
  {
    predicate IsFailure() {
      Failure?
    }

    function PropagateFailure<U>(): (r: Result<U>)
      requires Failure?
    {
      Failure
    }

    function Extract(): (r: T)
      requires Success?
    {
      value
    }
  }

  // ------------------------------------------------------- property names

  function FoldChar(c: char): (r: char) {
    if 'A' <= c <= 'Z' then (c as int + 32) as char else c
  }

  /** The case-folded form of a name: equal folds are the names the reader
      treats as the same when case-insensitive matching is on. */
  function Fold(s: string): (r: string)
    ensures |r| == |s|
    ensures forall i :: 0 <= i < |s| ==> r[i] == FoldChar(s[i])
  {
    seq(|s|, i requires 0 <= i < |s| => FoldChar(s[i]))
  }

  /** Whether a JSON member name binds to a CLR property name. */
  predicate NameMatches(jsonName: string, property: string, ignoreCase: bool) {
    if ignoreCase then Fold(jsonName) == Fold(property) else jsonName == property
  }

  /** Reads one property from an object's members: every member bound to it
      is decoded, a failure anywhere fails the whole read, the last one wins,
      and the property keeps `default` when no member names it. */
  function ReadProperty<T>(members: seq<Member>, property: string, ignoreCase: bool,
                           decode: Json -> Result<T>, default: T): (r: Result<T>)
    ensures (forall i :: 0 <= i < |members| ==> !NameMatches(members[i].name, property, ignoreCase))
            ==> r == Success(default)
  {
    if |members| == 0 then Success(default)
    else
      var prev := ReadProperty(members[..|members| - 1], property, ignoreCase, decode, default);
      var m := members[|members| - 1];
      if !NameMatches(m.name, property, ignoreCase) then prev
      else if prev.Failure? then Failure
      else decode(m.value)
  }

  /** Two member lists that differ only in the case of their names. */
  predicate SameUpToCase(a: seq<Member>, b: seq<Member>) {
    && |a| == |b|
    && forall i :: 0 <= i < |a| ==> Fold(a[i].name) == Fold(b[i].name) && a[i].value == b[i].value
  }

  /** With case-insensitive matching, the case in which the writer spelled
      the names makes no difference to what is read. */
  lemma {:induction false} ReadPropertyIgnoresCase<T>(a: seq<Member>, b: seq<Member>, property: string,
                                                      decode: Json -> Result<T>, default: T)
    requires SameUpToCase(a, b)
    ensures ReadProperty(a, property, true, decode, default)
         == ReadProperty(b, property, true, decode, default)
  {
    if |a| > 0 {
      ReadPropertyIgnoresCase(a[..|a| - 1], b[..|b| - 1], property, decode, default);
    }
  }

  /** When exactly one member binds to the property, the read decodes
      that member's value, wherever it stands among the others. */
  lemma {:induction false} ReadOnlyAt<T>(members: seq<Member>, k: nat, property: string, ignoreCase: bool,
                                         decode: Json -> Result<T>, default: T)
    requires k < |members| && NameMatches(members[k].name, property, ignoreCase)
    requires forall i :: 0 <= i < |members| && i != k ==> !NameMatches(members[i].name, property, ignoreCase)
    ensures ReadProperty(members, property, ignoreCase, decode, default) == decode(members[k].value)
  {
    var init := members[..|members| - 1];
    if k < |members| - 1 {
      ReadOnlyAt(init, k, property, ignoreCase, decode, default);
    } else {
      assert forall i :: 0 <= i < |init| ==> !NameMatches(init[i].name, property, ignoreCase);
    }
  }

  // ------------------------------------------------------ scalar converters

  function WriteInt32(x: Int32): (r: Json) {
    JNumber(Decimal(x, 0))
  }

  /** An `int` property accepts only an integral literal in range. */
  function ReadInt32(j: Json): (r: Result<Int32>)
    ensures r.Success? <==> j.JNumber? && j.n.scale == 0 && MinInt32 <= j.n.mantissa <= MaxInt32
  {
    match j
    case JNumber(Decimal(m, 0)) => if MinInt32 <= m <= MaxInt32 then Success(m) else Failure
    case _ => Failure
  }

  /** A `string` property takes a JSON string, or null. */
  function ReadString(j: Json): (r: Result<Option<string>>)
    ensures r.Success? <==> j.JString? || j.JNull?
    ensures j.JNull? ==> r == Success(None)
  {
    match j
    case JNull => Success(None)
    case JString(s) => Success(Some(s))
    case _ => Failure
  }

  /** A `decimal` property takes any JSON number. */
  function ReadDecimal(j: Json): (r: Result<Decimal>)
    ensures r.Success? <==> j.JNumber?
  {
    match j
    case JNumber(d) => Success(d)
    case _ => Failure
  }

  function WriteDateTime(t: Iso8601.UtcTime): (r: Json) {
    JString(Iso8601.Format(t))
  }

  /** A `DateTime` property takes a string holding a valid instant; null is
      rejected because `DateTime` is a value type. */
  function ReadDateTime(j: Json): (r: Result<Iso8601.UtcTime>)
    ensures j.JNull? ==> r.Failure?
    ensures r.Success? ==> j.JString? && Iso8601.Parse(j.s) == Some(r.value)
  {
    match j
    case JString(s) =>
      (match Iso8601.Parse(s)
       case Some(t) => Success(t)
       case None => Failure)
    case _ => Failure
  }

  lemma Int32RoundTrip(x: Int32)
    ensures ReadInt32(WriteInt32(x)) == Success(x)
  {
  }

  lemma DateTimeRoundTrip(t: Iso8601.UtcTime)
    ensures ReadDateTime(WriteDateTime(t)) == Success(t)
  {
    Iso8601.ParseFormat(t);
  }
}

=== FILE: order_messages.dfy ===
/** OrderService's copy of the OrderPlaced event (the wire schema) and how
    the publisher writes it: `JsonSerializer.Serialize` with default options,
    which names each member exactly as the property is declared and writes
    the properties in declaration order. */
module OrderMessages {
  import opened Primitives
  import opened Json
  import Iso8601

  datatype OrderItemMessage = OrderItemMessage(productId: Int32, quantity: Int32, unitPrice: Decimal)

  datatype OrderPlacedMessage = OrderPlacedMessage(
    orderId: Int32,
    customerId: string,
    placedAt: Iso8601.UtcTime,
    items: seq<OrderItemMessage>)

  function WriteItem(it: OrderItemMessage): (r: Json) {
    JObject([Member("ProductId", WriteInt32(it.productId)),
             Member("Quantity", WriteInt32(it.quantity)),
             Member("UnitPrice", JNumber(it.unitPrice))])
  }

  function WriteItems(items: seq<OrderItemMessage>): (r: seq<Json>) {
    seq(|items|, i requires 0 <= i < |items| => WriteItem(items[i]))
  }

  /** The document the publisher sends. */
  function Serialize(m: OrderPlacedMessage): (r: Json) {
    JObject([Member("OrderId", WriteInt32(m.orderId)),
             Member("CustomerId", JString(m.customerId)),
             Member("PlacedAt", WriteDateTime(m.placedAt)),
             Member("Items", JArray(WriteItems(m.items)))])
  }

  /** The document the publisher sends holds the four properties under their
      declared names, in declaration order, each with a value that the
      matching reader takes back to the property's value, and `Items` is an
      array with one element per line. */
  lemma SerializeReadsBack(m: OrderPlacedMessage)
    ensures var j := Serialize(m);
            && j.JObject? && |j.members| == 4
            && j.members[0].name == "OrderId" && ReadInt32(j.members[0].value) == Success(m.orderId)
            && j.members[1].name == "CustomerId"
            && ReadString(j.members[1].value) == Success(Some(m.customerId))
            && j.members[2].name == "PlacedAt" && ReadDateTime(j.members[2].value) == Success(m.placedAt)
            && j.members[3].name == "Items" && j.members[3].value.JArray?
            && |j.members[3].value.elems| == |m.items|
  {
    DateTimeRoundTrip(m.placedAt);
  }
}

=== FILE: orders.dfy ===
/** OrderService's `Order` entity and the store that persists it. The store
    is the orders table seen from `SaveChangesAsync`: an insert either
    throws or commits the order under the next identity value, which it
    writes back into the order's `OrderId`. */
module Orders {
  import opened Primitives
  import Iso8601

  /** An order line. Its class is not part of this model; the controller
      reads and writes exactly these three properties. */
  datatype OrderItem = OrderItem(productId: Int32, quantity: Int32, unitPrice: Decimal)

  datatype Order = Order(
    orderId: Int32,
    customerId: string,
    orderDate: Iso8601.UtcTime,
    status: string,
    items: seq<OrderItem>)

  const Placed: string := "Placed"

  /** `new Order()` with the clock reading `now`: no id yet, an empty
      customer, the order date taken from the clock, status "Placed" and no
      lines. */
  function NewOrder(now: Iso8601.UtcTime): (o: Order)
    ensures o.orderId == 0 && o.customerId == "" && o.orderDate == now
    ensures o.status == Placed && o.items == []
  {
    Order(0, "", now, Placed, [])
  }

  /** The orders table: committed rows by id, and the next identity value. */
  datatype OrderDb = OrderDb(rows: map<Int32, Order>, nextId: int)
  {
    /** Every row sits under its own id, and ids are handed out upwards. */
    predicate Valid() {
      && nextId >= 1
      && forall id :: id in rows ==> id < nextId && rows[id].orderId == id
    }
  }

  /** What `SaveChangesAsync` on a new order does. */
  datatype Insert = InsertFailed | Inserted(db: OrderDb, saved: Order)

  /** Inserting commits the order under a fresh id, and changes nothing
      else about it or about the rows already there; it fails (the store's
      fault, or the identity column running past `int`) and then commits
      nothing. A save that commits and then throws is not modelled. */
  function InsertOrder(db: OrderDb, o: Order, fails: bool): (r: Insert)
    requires db.Valid()
    ensures r.InsertFailed? <==> fails || db.nextId > MaxInt32
    ensures r.Inserted? ==> && r.saved == o.(orderId := r.saved.orderId)
                            && r.saved.orderId !in db.rows
                            && r.db.rows == db.rows[r.saved.orderId := r.saved]
                            && r.db.Valid()
  {
    if fails || db.nextId > MaxInt32 then InsertFailed
    else
      var saved := o.(orderId := db.nextId);
      Inserted(OrderDb(db.rows[db.nextId := saved], db.nextId + 1), saved)
  }
}

=== FILE: orders_controller.dfy ===
/** `OrdersController.CreateOrder`: validate the request, persist the order,
    then publish the OrderPlaced event describing what was persisted. The
    clock, the store's and the broker's failures are parameters; an
    exception that escapes the action is the `Unhandled` response, tagged
    with the step that threw. */
module OrdersController {
  import opened Primitives
  import Iso8601
  import opened Orders
  import opened ServiceBus
  import OrderMessages
  import Pub = OrderEventPublisher

  datatype OrderItemRequest = OrderItemRequest(productId: Int32, quantity: Int32, unitPrice: Decimal)

  /** The request body; a JSON `null` for `Items` binds as `None`. */
  datatype CreateOrderRequest = CreateOrderRequest(customerId: string, items: Option<seq<OrderItemRequest>>)

  /** A request body that sets nothing: an empty customer and no lines. */
  const DefaultRequest: CreateOrderRequest := CreateOrderRequest("", Some([]))

  const EmptyOrderError: string := "Order must contain at least one item."

  datatype Stage = Saving | Publishing

  datatype Response =
    | BadRequest(error: string)
    | Created(orderId: Int32, customerId: string, status: string)
    | Unhandled(stage: Stage)

  /** The calls the action makes on the store and on the broker, in order,
      with whether each returned normally. */
  datatype Call = SaveChanges(ok: bool) | SendMessage(envelope: Envelope, ok: bool)

  /** What the action can change: the orders table, the queue and the GUID
      source. */
  datatype World = World(db: OrderDb, sender: Pub.Sender, ids: Pub.IdSource)

  datatype Outcome = Outcome(response: Response, world: World, calls: seq<Call>)

  /** The lines hold the requested products, quantities and prices, in the
      requested order. */
  predicate Mirrors(requested: seq<OrderItemRequest>, lines: seq<OrderItem>) {
    && |lines| == |requested|
    && forall k :: 0 <= k < |requested| ==>
         && lines[k].productId == requested[k].productId
         && lines[k].quantity == requested[k].quantity
         && lines[k].unitPrice == requested[k].unitPrice
  }

  /** The event lines hold the order's products, quantities and prices, in
      the order's order. */
  predicate EventLinesMirror(lines: seq<OrderItem>, event: seq<OrderMessages.OrderItemMessage>) {
    && |event| == |lines|
    && forall k :: 0 <= k < |lines| ==>
         && event[k].productId == lines[k].productId
         && event[k].quantity == lines[k].quantity
         && event[k].unitPrice == lines[k].unitPrice
  }

  /** The order the action builds (lines 83-94). */
  function BuildOrder(customerId: string, requested: seq<OrderItemRequest>, now: Iso8601.UtcTime): (o: Order)
    ensures o.orderId == 0 && o.customerId == customerId && o.orderDate == now && o.status == Placed
    ensures Mirrors(requested, o.items)
  {
    var lines := seq(|requested|, k requires 0 <= k < |requested| =>
      OrderItem(requested[k].productId, requested[k].quantity, requested[k].unitPrice));
    NewOrder(now).(customerId := customerId, items := lines)
  }

  /** The event describing a saved order (lines 101-112). */
  function ToMessage(o: Order): (m: OrderMessages.OrderPlacedMessage)
    ensures m.orderId == o.orderId && m.customerId == o.customerId && m.placedAt == o.orderDate
    ensures EventLinesMirror(o.items, m.items)
  {
    OrderMessages.OrderPlacedMessage(o.orderId, o.customerId, o.orderDate,
      seq(|o.items|, k requires 0 <= k < |o.items| =>
        OrderMessages.OrderItemMessage(o.items[k].productId, o.items[k].quantity, o.items[k].unitPrice)))
  }

  /** Envelopes that reached the queue through the calls. */
  function Delivered(calls: seq<Call>): (es: seq<Envelope>)
    ensures |es| <= |calls|
  {
    if |calls| == 0 then []
    else
      var k := |calls| - 1;
      var c := calls[k];
      Delivered(calls[..k]) + (if c.SendMessage? && c.ok then [c.envelope] else [])
  }

  /** Whether the request has any lines. */
  predicate HasItems(req: CreateOrderRequest) {
    req.items.Some? && |req.items.value| > 0
  }

  /** The action. A request without lines is refused before anything else
      happens. Otherwise the store is called once; only after it returns is
      the broker called, once, and the queue receives exactly what that call
      delivered. `Created` is answered only when both calls returned, and it
      reports a new row of the table, for the requested customer, with
      status "Placed". A failed save leaves everything as it was. */
  function CreateOrder(req: CreateOrderRequest, now: Iso8601.UtcTime, w: World,
                       saveFails: bool, sendFails: bool): (out: Outcome)
    requires w.db.Valid()
    ensures out.response.BadRequest? <==> !HasItems(req)
    ensures out.response.BadRequest? ==>
              out.response.error == EmptyOrderError && out.world == w && out.calls == []
    ensures HasItems(req) ==> |out.calls| >= 1 && out.calls[0].SaveChanges?
    ensures forall k :: 0 <= k < |out.calls| && out.calls[k].SendMessage? ==>
              k > 0 && out.calls[k - 1] == SaveChanges(true)
    ensures |out.calls| <= 2
    ensures out.response == Unhandled(Saving) ==> out.world == w && out.calls == [SaveChanges(false)]
    ensures out.response.Created? <==>
              |out.calls| == 2 && out.calls[0] == SaveChanges(true) && out.calls[1].ok
    ensures out.response.Created? ==> && out.response.customerId == req.customerId
                                      && out.response.status == "Placed"
                                      && out.response.orderId !in w.db.rows
                                      && out.response.orderId in out.world.db.rows
    ensures out.world.sender.queue == w.sender.queue
    ensures out.world.sender.sent == w.sender.sent + Delivered(out.calls)
    ensures out.world.db.Valid()
  {
    if !HasItems(req) then Outcome(BadRequest(EmptyOrderError), w, [])
    else
      var order := BuildOrder(req.customerId, req.items.value, now);
      match InsertOrder(w.db, order, saveFails)
      case InsertFailed => Outcome(Unhandled(Saving), w, [SaveChanges(false)])
      case Inserted(db, saved) =>
        var p := Pub.PublishOrderPlaced(w.sender, w.ids, ToMessage(saved), sendFails);
        var calls := [SaveChanges(true), SendMessage(p.envelope, p.ok)];
        assert Delivered(calls[..1]) == [];
        var response := if p.ok then Created(saved.orderId, saved.customerId, saved.status)
                        else Unhandled(Publishing);
        Outcome(response, World(db, p.sender, p.ids), calls)
  }

  /** The committed order is the request's order: the requested customer
      and lines, the clock's time, status "Placed". */
  predicate OrderFor(req: CreateOrderRequest, now: Iso8601.UtcTime, o: Order)
    requires HasItems(req)
  {
    && o.customerId == req.customerId && o.orderDate == now && o.status == Placed
    && Mirrors(req.items.value, o.items)
  }

  /** Once the save returns, the table holds one new row, under the next
      identity value, with the request's order in it, and the rows there
      before are untouched; the one message sent then is the event for
      exactly that row. This holds whether or not the send succeeds: a
      failed publish answers with an error, but the order stays saved. */
  lemma EventDescribesSavedOrder(req: CreateOrderRequest, now: Iso8601.UtcTime, w: World,
                                 saveFails: bool, sendFails: bool)
    requires w.db.Valid()
    ensures var out := CreateOrder(req, now, w, saveFails, sendFails);
            |out.calls| >= 1 && out.calls[0] == SaveChanges(true) ==>
              var id := w.db.nextId;
              && HasItems(req)
              && id !in w.db.rows
              && out.world.db.rows.Keys == w.db.rows.Keys + {id}
              && (forall old_id :: old_id in w.db.rows ==> out.world.db.rows[old_id] == w.db.rows[old_id])
              && OrderFor(req, now, out.world.db.rows[id])
              && out.world.db.rows[id].orderId == id
              && |out.calls| == 2
              && out.calls[1].SendMessage?
              && out.calls[1].envelope.body
                 == WellFormed(OrderMessages.Serialize(ToMessage(out.world.db.rows[id])))
  {
  }

  /** The event names the saved order's id and customer, its date as the
      placement time, and its lines in order, so it always has at least one
      line. */
  lemma EventHasLines(o: Order)
    requires |o.items| > 0
    ensures |ToMessage(o).items| > 0
    ensures ToMessage(o).orderId == o.orderId && ToMessage(o).placedAt == o.orderDate
  {
  }

  /** A failed publish comes after the commit: the answer is an error, the
      order is saved, and the queue is as it was. */
  lemma PublishFailureKeepsOrder(req: CreateOrderRequest, now: Iso8601.UtcTime, w: World)
    requires w.db.Valid() && HasItems(req) && w.db.nextId <= MaxInt32
    ensures var out := CreateOrder(req, now, w, false, true);
            && out.response == Unhandled(Publishing)
            && w.db.nextId in out.world.db.rows && w.db.nextId !in w.db.rows
            && out.world.sender == w.sender
  {
  }

  /** A request with a null or empty `Items` list is refused with the fixed
      message, and nothing is saved or published. */
  lemma EmptyRequestRefused(now: Iso8601.UtcTime, w: World, customerId: string,
                            saveFails: bool, sendFails: bool)
    requires w.db.Valid()
    ensures CreateOrder(DefaultRequest, now, w, saveFails, sendFails)
         == Outcome(BadRequest(EmptyOrderError), w, [])
    ensures CreateOrder(CreateOrderRequest(customerId, None), now, w, saveFails, sendFails)
         == Outcome(BadRequest(EmptyOrderError), w, [])
  {
  }
}

=== FILE: pipeline.dfy ===
/** The two services joined by the queue: an order the OrderService
    accepts reaches the InventoryService as an event that deducts exactly
    the requested lines. */
module Pipeline {
  import opened Primitives
  import Iso8601
  import opened ServiceBus
  import OrderMessages
  import Orders
  import M = InventoryMessages
  import Ctl = OrdersController
  import W = WireCompat
  import opened Inventory
  import Consumer = OrderPlacedConsumer
  import Pub = OrderEventPublisher

  /** The inventory lines a list of requested lines stands for. */
  function RequestedLines(items: seq<Ctl.OrderItemRequest>): (r: seq<M.OrderItemMessage>)
    ensures |r| == |items|
    ensures forall k :: 0 <= k < |items| ==>
              r[k] == M.OrderItemMessage(items[k].productId, items[k].quantity, items[k].unitPrice)
  {
    seq(|items|, k requires 0 <= k < |items| =>
      M.OrderItemMessage(items[k].productId, items[k].quantity, items[k].unitPrice))
  }

  /** The consumer reads the event for an order as that order's lines, all
      present and in order. */
  lemma EventReadsAsOrderLines(req: Ctl.CreateOrderRequest, o: Orders.Order)
    requires Ctl.HasItems(req) && Ctl.Mirrors(req.items.value, o.items)
    ensures var c := W.ToConsumer(Ctl.ToMessage(o));
            && |Consumer.LinesOf(c)| > 0
            && Consumer.AllPresent(Consumer.LinesOf(c))
            && Consumer.Present(Consumer.LinesOf(c)) == RequestedLines(req.items.value)
  {
    var m := Ctl.ToMessage(o);
    var lines := Consumer.LinesOf(W.ToConsumer(m));
    assert |lines| == |req.items.value|;
    assert Consumer.AllPresent(lines) by {
      forall k | 0 <= k < |lines| ensures lines[k].Some? {
        assert lines[k] == Some(W.ToConsumerItem(m.items[k]));
      }
    }
    var present := Consumer.Present(lines);
    forall k | 0 <= k < |present| ensures present[k] == RequestedLines(req.items.value)[k] {
      assert lines[k] == Some(W.ToConsumerItem(m.items[k]));
    }
  }

  /** End to end: when `CreateOrder` answers `Created`, the one envelope it
      put on the queue, handled by the consumer against any stock with no
      store failure, is completed, after looking up each requested product
      once and saving once, and leaves the stock with the requested lines
      deducted in the requested order. */
  lemma PlacedOrderDeductsStock(req: Ctl.CreateOrderRequest, now: Iso8601.UtcTime, w: Ctl.World, stock: Stock)
    requires w.db.Valid()
    requires Ctl.CreateOrder(req, now, w, false, false).response.Created?
    ensures var out := Ctl.CreateOrder(req, now, w, false, false);
            var e := out.calls[1].envelope;
            && out.world.sender.sent == w.sender.sent + [e]
            && e.contentType == "application/json" && e.subject == "OrderPlaced"
            && Consumer.Handle(Consumer.Parse(e.body), stock, Consumer.NoFault)
               == Consumer.Handled(Complete, ApplyItems(stock, RequestedLines(req.items.value)),
                                   Consumer.Lookups(RequestedLines(req.items.value)) + [Consumer.Save])
  {
    var out := Ctl.CreateOrder(req, now, w, false, false);
    Ctl.EventDescribesSavedOrder(req, now, w, false, false);
    var o := out.world.db.rows[w.db.nextId];
    var m := Ctl.ToMessage(o);
    var e := out.calls[1].envelope;
    assert e.body == WellFormed(OrderMessages.Serialize(m));
    assert Ctl.Delivered(out.calls[..1]) == [];
    assert out.calls[..2] == out.calls;
    W.SerializeRoundTrip(m);
    EventReadsAsOrderLines(req, o);
  }

  /** A consistency note across the two services rather than a property
      of either: both resolve their queue through `QueueName`, each from
      its own configuration. When both constructors succeed, the
      publisher's sender and the consumer's processor share a queue exactly
      when the names the two configurations resolve to agree; with the key
      unset in both, both use "order-placed". */
  lemma SameQueue(publisher: Config, publisherRejects: bool, consumer: Config, consumerRejects: bool)
    requires Pub.Connect(publisher, publisherRejects).Some? && BoundQueue(consumer, consumerRejects).Some?
    ensures Pub.Connect(publisher, publisherRejects).value.queue
              == BoundQueue(consumer, consumerRejects).value
            <==> QueueName(publisher.queueName) == QueueName(consumer.queueName)
    ensures publisher.queueName.None? && consumer.queueName.None? ==>
              Pub.Connect(publisher, publisherRejects).value.queue == "order-placed"
              && BoundQueue(consumer, consumerRejects).value == "order-placed"
  {
  }
}

=== FILE: primitives.dfy ===
/** Value types shared by both services: C#'s nullable references, its 32-bit
    `int` with unchecked (wrap-around) arithmetic, and `decimal` carried as an
    opaque literal. */
module Primitives {

  /** A C# reference that may be null. */
  datatype Option<+T> = None | Some(value: T)

  const MinInt32: int := -0x8000_0000
  const MaxInt32: int := 0x7fff_ffff

  /** C#'s `int`. */
  type Int32 = x: int | MinInt32 <= x <= MaxInt32

  /** C#'s unchecked `a - b` on two `int`s: the exact difference when it
      fits, otherwise the difference wrapped once around 2^32. */
  function Sub32(a: Int32, b: Int32): (r: Int32)
    ensures MinInt32 <= a - b <= MaxInt32 ==> r == a - b
    ensures a - b > MaxInt32 ==> r == a - b - 0x1_0000_0000
    ensures a - b < MinInt32 ==> r == a - b + 0x1_0000_0000
  {
    var d := a - b;
    if d > MaxInt32 then d - 0x1_0000_0000
    else if d < MinInt32 then d + 0x1_0000_0000
    else d
  }

  /** A `decimal` as the digits it was written with: `mantissa * 10^-scale`.
      Nothing in the pipeline computes with prices, so the value is carried
      unchanged from request to event. */
  datatype Decimal = Decimal(mantissa: int, scale: nat)
}

=== FILE: publisher.dfy ===
/** `OrderEventPublisher`: one sender bound to the configured queue, and
    `PublishOrderPlacedAsync`, which serializes the event, wraps it in an
    envelope with a fixed content type and subject and a new message id, and
    sends it once. The id source stands for `Guid.NewGuid()`: every call
    draws an id no earlier call drew. */
module OrderEventPublisher {
  import opened Primitives
  import opened ServiceBus
  import opened OrderMessages

  const ContentType: string := "application/json"
  const Subject: string := "OrderPlaced"

  /** The source of new GUIDs: every id it hands out is below `next`. */
  datatype IdSource = IdSource(next: nat)

  /** The sender: its queue and what has reached that queue through it. */
  datatype Sender = Sender(queue: string, sent: seq<Envelope>)

  /** The constructor: a sender with nothing sent yet, bound to the queue
      the configuration names; it throws (`None`) without a connection
      string, or when the client library rejects its arguments. */
  function Connect(config: Config, clientRejects: bool): (s: Option<Sender>)
    ensures s.Some? <==> config.connectionString.Some? && !clientRejects
    ensures s.Some? ==> && s.value.sent == []
                        && s.value.queue
                           == (if config.queueName.Some? then config.queueName.value else "order-placed")
  {
    match BoundQueue(config, clientRejects)
    case None => None
    case Some(q) => Some(Sender(q, []))
  }

  /** The envelope a call builds around a body, with the id it drew. */
  function Wrap(m: OrderPlacedMessage, id: Guid): (r: Envelope) {
    Envelope(id, ContentType, Subject, WellFormed(Serialize(m)))
  }

  /** The outcome of one call: the envelope built, the sender and id source
      afterwards, and whether the send succeeded (a failed send throws to
      the caller). */
  datatype Published = Published(envelope: Envelope, sender: Sender, ids: IdSource, ok: bool)

  /** One call: the envelope carries the serialized message, content type
      "application/json", subject "OrderPlaced" and an id drawn fresh for
      this call; the one send appends it to the queue, or fails, leaving the
      queue as it was, with no retry. */
  function PublishOrderPlaced(s: Sender, ids: IdSource, m: OrderPlacedMessage,
                              sendFails: bool): (r: Published)
    ensures r.envelope.contentType == "application/json" && r.envelope.subject == "OrderPlaced"
    ensures r.envelope.body == WellFormed(Serialize(m))
    ensures r.envelope.messageId.n >= ids.next && r.ids.next > r.envelope.messageId.n
    ensures r.ok <==> !sendFails
    ensures r.ok ==> r.sender == s.(sent := s.sent + [r.envelope])
    ensures !r.ok ==> r.sender == s
  {
    var id := Guid(ids.next);
    var e := Wrap(m, id);
    if sendFails then Published(e, s, IdSource(ids.next + 1), false)
    else Published(e, Sender(s.queue, s.sent + [e]), IdSource(ids.next + 1), true)
  }

  /** Every envelope on the queue carries an id the source has handed out. */
  predicate IdsIssued(s: Sender, ids: IdSource) {
    forall i :: 0 <= i < |s.sent| ==> s.sent[i].messageId.n < ids.next
  }

  predicate DistinctIds(s: Sender) {
    forall i, j :: 0 <= i < j < |s.sent| ==> s.sent[i].messageId != s.sent[j].messageId
  }

  /** A publish never reuses an id already on the queue, so however many
      calls are made, no two sent envelopes share an id. */
  lemma PublishKeepsIdsDistinct(s: Sender, ids: IdSource, m: OrderPlacedMessage, sendFails: bool)
    requires IdsIssued(s, ids) && DistinctIds(s)
    ensures var r := PublishOrderPlaced(s, ids, m, sendFails);
            IdsIssued(r.sender, r.ids) && DistinctIds(r.sender)
  {
  }

  /** Publishing a sequence of messages, one call after another. */
  function PublishAll(s: Sender, ids: IdSource, ms: seq<OrderPlacedMessage>): (r: (Sender, IdSource))
    decreases |ms|
  {
    if |ms| == 0 then (s, ids)
    else
      var p := PublishOrderPlaced(s, ids, ms[0], false);
      PublishAll(p.sender, p.ids, ms[1..])
  }

  /** From a fresh sender, publishing any messages leaves one envelope per
      message on the queue, no two with the same id. */
  lemma {:induction false} PublishAllDistinct(s: Sender, ids: IdSource, ms: seq<OrderPlacedMessage>)
    requires IdsIssued(s, ids) && DistinctIds(s)
    ensures |PublishAll(s, ids, ms).0.sent| == |s.sent| + |ms|
    ensures IdsIssued(PublishAll(s, ids, ms).0, PublishAll(s, ids, ms).1)
    ensures DistinctIds(PublishAll(s, ids, ms).0)
    decreases |ms|
  {
    if |ms| > 0 {
      var p := PublishOrderPlaced(s, ids, ms[0], false);
      assert PublishAll(s, ids, ms) == PublishAll(p.sender, p.ids, ms[1..]);
      PublishKeepsIdsDistinct(s, ids, ms[0], false);
      PublishAllDistinct(p.sender, p.ids, ms[1..]);
    }
  }
}

=== FILE: service_bus.dfy ===
/** What both services see of the broker: the message envelope, the queue
    name each reads from configuration, and the verdicts a receiver can
    settle a message with. The broker itself (locks, redelivery counting,
    automatic dead-lettering) is outside this model. */
module ServiceBus {
  import opened Primitives
  import Json

  /** The bytes of a body, represented by the JSON document they spell, or
      `NotJson` when they are not well-formed JSON text. */
  datatype Body = WellFormed(doc: Json.Json) | NotJson

  /** A `Guid`; distinct values render to distinct strings. */
  datatype Guid = Guid(n: nat)

  datatype Envelope = Envelope(messageId: Guid, contentType: string, subject: string, body: Body)

  /** How a receiver settles a message it was handed. */
  datatype Verdict = Complete | Abandon | DeadLetter(reason: string)

  const DefaultQueueName: string := "order-placed"

  /** `config["AzureServiceBus:QueueName"] ?? "order-placed"`. */
  function QueueName(configured: Option<string>): (name: string)
    ensures configured.Some? ==> name == configured.value
    ensures configured.None? ==> name == DefaultQueueName
  {
    match configured
    case Some(q) => q
    case None => DefaultQueueName
  }

  /** The two configuration keys both services read. */
  datatype Config = Config(connectionString: Option<string>, queueName: Option<string>)

  /** The queue a client constructed from `config` binds to, or `None` when
      the constructor throws: the service's own check throws when no
      connection string is configured, and the client library's argument
      checks (an empty or malformed connection string, a blank queue name)
      may throw too. Those checks belong to the library and are not part of
      this model; `clientRejects` says whether they throw. */
  function BoundQueue(config: Config, clientRejects: bool): (q: Option<string>)
    ensures q.None? <==> config.connectionString.None? || clientRejects
    ensures q.Some? && config.queueName.Some? ==> q.value == config.queueName.value
    ensures q.Some? && config.queueName.None? ==> q.value == "order-placed"
  {
    if config.connectionString.None? || clientRejects then None else Some(QueueName(config.queueName))
  }
}

=== FILE: wire_compat.dfy ===
/** The two services share no code: each declares its own OrderPlaced class
    and they agree only on the JSON schema. This module states that
    agreement: the classes have the same properties, and a body the
    publisher writes reads back, at the consumer, as the same event. */
module WireCompat {
  import opened Primitives
  import opened Json
  import Iso8601
  import P = OrderMessages
  import C = InventoryMessages

  /** The consumer-side item holding the same property values. */
  function ToConsumerItem(it: P.OrderItemMessage): (r: C.OrderItemMessage) {
    C.OrderItemMessage(it.productId, it.quantity, it.unitPrice)
  }

  /** The consumer-side message holding the same property values: no
      reference is null, and every item is present. */
  function ToConsumer(m: P.OrderPlacedMessage): (c: C.OrderPlacedMessage)
    ensures c.orderId == m.orderId && c.customerId == Some(m.customerId) && c.placedAt == m.placedAt
    ensures c.items.Some? && |c.items.value| == |m.items|
    ensures forall i :: 0 <= i < |m.items| ==> c.items.value[i] == Some(ToConsumerItem(m.items[i]))
  {
    C.OrderPlacedMessage(m.orderId, Some(m.customerId), m.placedAt,
                         Some(seq(|m.items|, i requires 0 <= i < |m.items| =>
                                    Some(ToConsumerItem(m.items[i])))))
  }

  /** The producer-side message a consumer message with no null parts
      corresponds to. */
  function FromConsumer(c: C.OrderPlacedMessage): (r: P.OrderPlacedMessage)
    requires c.customerId.Some? && c.items.Some?
    requires forall i :: 0 <= i < |c.items.value| ==> c.items.value[i].Some?
  {
    var items := c.items.value;
    P.OrderPlacedMessage(c.orderId, c.customerId.value, c.placedAt,
      seq(|items|, i requires 0 <= i < |items| && items[i].Some? =>
        P.OrderItemMessage(items[i].value.productId, items[i].value.quantity, items[i].value.unitPrice)))
  }

  /** The schemas correspond property for property: going to the consumer
      copy and back loses nothing, so no two producer messages look alike to
      the consumer. */
  lemma SchemasCorrespond(m: P.OrderPlacedMessage)
    ensures FromConsumer(ToConsumer(m)) == m
  {
    var back := FromConsumer(ToConsumer(m));
    assert back.items == m.items;
  }

  lemma ToConsumerInjective(a: P.OrderPlacedMessage, b: P.OrderPlacedMessage)
    requires ToConsumer(a) == ToConsumer(b)
    ensures a == b
  {
    SchemasCorrespond(a);
    SchemasCorrespond(b);
  }

  // -------------------------------------------------------------- spelling

  /** The member names a writer uses: for the message and for each item. */
  datatype Names = Names(orderId: string, customerId: string, placedAt: string, items: string,
                         productId: string, quantity: string, unitPrice: string)

  /** The names as the properties are declared, which is what the publisher's
      serializer writes. */
  const Declared: Names := Names("OrderId", "CustomerId", "PlacedAt", "Items",
                                 "ProductId", "Quantity", "UnitPrice")

  /** Names that bind to the declared properties when case is ignored. */
  predicate CaseVariant(n: Names) {
    && Fold(n.orderId) == Fold(Declared.orderId)
    && Fold(n.customerId) == Fold(Declared.customerId)
    && Fold(n.placedAt) == Fold(Declared.placedAt)
    && Fold(n.items) == Fold(Declared.items)
    && Fold(n.productId) == Fold(Declared.productId)
    && Fold(n.quantity) == Fold(Declared.quantity)
    && Fold(n.unitPrice) == Fold(Declared.unitPrice)
  }

  function SpellItem(n: Names, it: P.OrderItemMessage): (r: Json) {
    JObject([Member(n.productId, WriteInt32(it.productId)),
             Member(n.quantity, WriteInt32(it.quantity)),
             Member(n.unitPrice, JNumber(it.unitPrice))])
  }

  /** The body for `m`, written with the member names `n`. */
  function Spell(n: Names, m: P.OrderPlacedMessage): (r: Json) {
    JObject([Member(n.orderId, WriteInt32(m.orderId)),
             Member(n.customerId, JString(m.customerId)),
             Member(n.placedAt, WriteDateTime(m.placedAt)),
             Member(n.items, JArray(seq(|m.items|, i requires 0 <= i < |m.items| =>
                                      SpellItem(n, m.items[i]))))])
  }

  lemma SerializeSpellsDeclared(m: P.OrderPlacedMessage)
    ensures P.Serialize(m) == Spell(Declared, m)
  {
    assert P.WriteItems(m.items) == Spell(Declared, m).members[3].value.elems;
  }

  lemma DeclaredNamesDistinct()
    ensures Fold("OrderId") != Fold("CustomerId") && Fold("OrderId") != Fold("PlacedAt")
    ensures Fold("OrderId") != Fold("Items") && Fold("CustomerId") != Fold("PlacedAt")
    ensures Fold("CustomerId") != Fold("Items") && Fold("PlacedAt") != Fold("Items")
    ensures Fold("ProductId") != Fold("Quantity") && Fold("ProductId") != Fold("UnitPrice")
    ensures Fold("Quantity") != Fold("UnitPrice")
  {
    assert Fold("ProductId")[0] == 'p';
    assert Fold("UnitPrice")[0] == 'u';
  }

  lemma ItemRoundTrip(n: Names, it: P.OrderItemMessage)
    requires CaseVariant(n)
    ensures C.ReadItem(SpellItem(n, it)) == Success(Some(ToConsumerItem(it)))
  {
    var ms := SpellItem(n, it).members;
    DeclaredNamesDistinct();
    ReadOnlyAt(ms, 0, "ProductId", true, ReadInt32, C.DefaultItem.productId);
    ReadOnlyAt(ms, 1, "Quantity", true, ReadInt32, C.DefaultItem.quantity);
    ReadOnlyAt(ms, 2, "UnitPrice", true, ReadDecimal, C.DefaultItem.unitPrice);
    assert ReadProperty(ms, "ProductId", true, ReadInt32, C.DefaultItem.productId) == Success(it.productId);
    assert ReadProperty(ms, "Quantity", true, ReadInt32, C.DefaultItem.quantity) == Success(it.quantity);
    assert ReadProperty(ms, "UnitPrice", true, ReadDecimal, C.DefaultItem.unitPrice) == Success(it.unitPrice);
  }

  lemma ItemsRoundTrip(n: Names, m: P.OrderPlacedMessage)
    requires CaseVariant(n)
    ensures C.ReadItems(Spell(n, m).members[3].value) == Success(ToConsumer(m).items)
  {
    var es := Spell(n, m).members[3].value.elems;
    forall i | 0 <= i < |es|
      ensures C.ReadItem(es[i]) == Success(Some(ToConsumerItem(m.items[i])))
    {
      ItemRoundTrip(n, m.items[i]);
    }
    var r := C.ReadItemList(es);
    assert r.Success?;
    assert r.value == ToConsumer(m).items.value;
  }

  lemma OrderIdRoundTrip(n: Names, m: P.OrderPlacedMessage)
    requires CaseVariant(n)
    ensures ReadProperty(Spell(n, m).members, "OrderId", true, ReadInt32, C.DefaultMessage.orderId)
         == Success(m.orderId)
  {
    DeclaredNamesDistinct();
    ReadOnlyAt(Spell(n, m).members, 0, "OrderId", true, ReadInt32, C.DefaultMessage.orderId);
  }

  lemma CustomerIdRoundTrip(n: Names, m: P.OrderPlacedMessage)
    requires CaseVariant(n)
    ensures ReadProperty(Spell(n, m).members, "CustomerId", true, ReadString, C.DefaultMessage.customerId)
         == Success(Some(m.customerId))
  {
    DeclaredNamesDistinct();
    ReadOnlyAt(Spell(n, m).members, 1, "CustomerId", true, ReadString, C.DefaultMessage.customerId);
  }

  /** In a body spelled with `n`, only the third member binds to `PlacedAt`. */
  lemma OnlyPlacedAtBinds(n: Names, ms: seq<Member>)
    requires CaseVariant(n) && |ms| == 4
    requires ms[0].name == n.orderId && ms[1].name == n.customerId
    requires ms[2].name == n.placedAt && ms[3].name == n.items
    ensures NameMatches(ms[2].name, "PlacedAt", true)
    ensures forall i :: 0 <= i < |ms| && i != 2 ==> !NameMatches(ms[i].name, "PlacedAt", true)
  {
    DeclaredNamesDistinct();
  }

  lemma PlacedAtRoundTrip(n: Names, m: P.OrderPlacedMessage)
    requires CaseVariant(n)
    ensures ReadProperty(Spell(n, m).members, "PlacedAt", true, ReadDateTime, C.DefaultMessage.placedAt)
         == Success(m.placedAt)
  {
    var ms := Spell(n, m).members;
    OnlyPlacedAtBinds(n, ms);
    ReadOnlyAt(ms, 2, "PlacedAt", true, ReadDateTime, C.DefaultMessage.placedAt);
    DateTimeRoundTrip(m.placedAt);
  }

  lemma ScalarsRoundTrip(n: Names, m: P.OrderPlacedMessage)
    requires CaseVariant(n)
    ensures ReadProperty(Spell(n, m).members, "OrderId", true, ReadInt32, C.DefaultMessage.orderId)
         == Success(m.orderId)
    ensures ReadProperty(Spell(n, m).members, "CustomerId", true, ReadString, C.DefaultMessage.customerId)
         == Success(Some(m.customerId))
    ensures ReadProperty(Spell(n, m).members, "PlacedAt", true, ReadDateTime, C.DefaultMessage.placedAt)
         == Success(m.placedAt)
  {
    OrderIdRoundTrip(n, m);
    CustomerIdRoundTrip(n, m);
    PlacedAtRoundTrip(n, m);
  }

  lemma ItemsMemberRoundTrip(n: Names, m: P.OrderPlacedMessage)
    requires CaseVariant(n)
    ensures ReadProperty(Spell(n, m).members, "Items", true, C.ReadItems, C.DefaultMessage.items)
         == Success(ToConsumer(m).items)
  {
    var ms := Spell(n, m).members;
    DeclaredNamesDistinct();
    ItemsRoundTrip(n, m);
    ReadOnlyAt(ms, 3, "Items", true, C.ReadItems, C.DefaultMessage.items);
  }

  /** The consumer reads any body the publisher writes as the message that
      was published, field for field and with the items in order, and it
      does so whatever case the member names are written in. */
  lemma RoundTrip(n: Names, m: P.OrderPlacedMessage)
    requires CaseVariant(n)
    ensures C.Deserialize(Spell(n, m)) == Success(Some(ToConsumer(m)))
  {
    ScalarsRoundTrip(n, m);
    ItemsMemberRoundTrip(n, m);
    C.DeserializeObject(Spell(n, m).members);
  }

  /** What the publisher actually sends reads back as the message it was
      given. */
  lemma SerializeRoundTrip(m: P.OrderPlacedMessage)
    ensures C.Deserialize(P.Serialize(m)) == Success(Some(ToConsumer(m)))
  {
    SerializeSpellsDeclared(m);
    RoundTrip(Declared, m);
  }

  /** The camel-case spellings of the property names are read like the
      declared ones. */
  lemma CamelCaseAccepted(m: P.OrderPlacedMessage)
    ensures C.Deserialize(Spell(Names("orderId", "customerId", "placedAt", "items",
                                      "productId", "quantity", "unitPrice"), m))
         == Success(Some(ToConsumer(m)))
  {
    RoundTrip(Names("orderId", "customerId", "placedAt", "items", "productId", "quantity", "unitPrice"), m);
  }
}
